=== FILE: README.md ===
# Catalog administration backend: request handlers in Dafny

This project models the request handlers of a small Express/MySQL administration
backend for a catalog of categories, products and users, together with its login
endpoint. Each handler becomes a pure function. It takes the parsed request body
(plus the path id and, for products, the uploaded file name) and the current table.
It returns a status, a JSON body and the table as it stands afterwards.

- `js.dfy` (module `Js`): the JavaScript value semantics the handlers rely on.
  These are truthiness, `trim`, `toLowerCase`, `Number()`, destructuring with
  defaults and the `/\S+@\S+\.\S+/` e-mail test.
- `store.dfy` (module `Store`): a table is a map from id to row plus the
  `AUTO_INCREMENT` counter, with insert, update-in-place and delete. It also holds the
  set helpers that stand for query result order.
- `crypto.dfy` (module `Crypto`): the bcrypt pair is a `Hasher` parameter. A signed
  token is its claim record plus the eight-hour expiry.
- `http.dfy` (module `Http`): responses, refusal reasons, the "first failing rule
  decides" idiom every create handler follows, and the shared delete.
- `categorias.dfy`, `productos.dfy`, `usuarios.dfy`, `auth.dfy`: the handlers of
  `categoriaController.js`, `productoController.js`, `usuarioController.js` and
  `authController.js`.

The hashing primitive's only assumed property is `Crypto.Sound`: a password verifies
against its own digest. Message texts are not modelled; a refusal carries a
`Reason` naming the failed check.

Where an update runs its checks in sequence, the model splits it in two:

- `PlanUpdate` walks the checks in source order and returns either the refusal or
  the patch to write.
- The handler applies that patch.

Behaviour of the code that the model keeps, although a reader might expect otherwise:

- A duplicate name or address on update is answered with 400.
- A delete blocked by a foreign key is answered with 500 by the code. Foreign keys
  are not modelled.
- Creating a user without `rol` is refused, because the default "Operador" is not in
  the lower-case role list. See Findings.
- `updateCategoria` answers with every supplied field, even a blank name it skipped.
  See Findings.
- `updateUsuario` counts an empty or otherwise falsy name or address as absent in its
  "at least one field" test. Other falsy values count as present.
- `login` takes the first matching row. A password that is not a string makes
  `bcrypt.compare` throw, which is answered with 500.

## Model

| member | source | states |
|---|---|---|
| Categorias.CreateCategoria | controllers/categoriaController.js:25-65 | A missing, non-string or blank name is refused with 400, and so is a status that `Number()` does not turn into 1 or 2; with both valid, 201 is given if and only if no stored name matches the trimmed, lower-cased input, and otherwise the refusal is a duplicate; a refusal leaves the table untouched; on 201 exactly one row is added, under the counter's id, holding the trimmed name and the coerced status, and the answer is that id, the trimmed name and the status as supplied (1 when absent) |
| Categorias.NameTakenOnTrimmed | controllers/categoriaController.js:41-44 | On a table of trimmed names the SQL `LOWER(TRIM(nombre)) = ?` pre-check holds exactly when some row's lower-cased name equals the key |
| Categorias.CreateCategoriaDuplicate | controllers/categoriaController.js:39-47 | With valid fields, creation is refused as a duplicate if and only if a stored name equals the trimmed input up to ASCII case; otherwise the table grows by one row |
| Categorias.CreateCategoriaKeepsNamesTrimmed | controllers/categoriaController.js:32-53 | Creation preserves the invariant that every stored name is trimmed |
| Categorias.CreateCategoriaKeepsNamesUnique | controllers/categoriaController.js:39-53 | Creation preserves uniqueness of names up to case |
| Categorias.InsertKeepsNamesUnique | controllers/categoriaController.js:39-53 | Adding a row whose name, up to case, no stored row holds keeps names unique |
| Categorias.SecondCreateClashes | controllers/categoriaController.js:39-53 | After a name is created, a second create of the same name in any case or spacing is refused as a duplicate |
| Categorias.PlanUpdate | controllers/categoriaController.js:67-113 | A patch is produced if and only if the id exists, a present name is a string that, unless blank, no other row holds, a present status is the number 1 or 2, and a non-blank name or a status is supplied. The refusals come in source order: neither field gives 400, then an unknown id 404, then a non-string name 500, then a name another row holds 400 Duplicate, then a bad status 400, then a blank name alone 400 for lack of valid data. A refusal never touches the table; a patch names the trimmed name only when it is not blank and the status only when supplied |
| Categorias.UpdateCategoria | controllers/categoriaController.js:67-133 | 200 if and only if the acceptance condition of `PlanUpdate` holds; the status is otherwise 400, 404 or 500 and the table is untouched; a 200 changes only row `id`, whose name becomes the trimmed input when it is not blank and whose status becomes the supplied number; the 200 body echoes exactly the supplied fields, the name trimmed even when it was blank and not written |
| Categorias.RenameToOwnName | controllers/categoriaController.js:89-101 | Renaming a category to its own name, in any case or spacing, is accepted and stores the trimmed input: the duplicate check excludes the row itself |
| Categorias.OwnNameFree | controllers/categoriaController.js:92-95 | With unique names, the self-excluding duplicate check never finds a category's own name |
| Categorias.RenamePlan | controllers/categoriaController.js:86-101 | A request carrying only a non-blank name no other row holds writes just that name, trimmed |
| Categorias.RenameToOtherName | controllers/categoriaController.js:89-98 | Renaming a category to another row's name, up to case and spacing, is refused as a duplicate |
| Categorias.OtherNameTaken | controllers/categoriaController.js:92-97 | On trimmed names, the self-excluding duplicate check finds another category's name |
| Categorias.UpdateRefusesStatusString | controllers/categoriaController.js:104-107 | An update takes the status only as a JSON number: the string "1" is refused |
| Categorias.UpdateRefusesBlankName | controllers/categoriaController.js:89-113 | A name of spaces alone is skipped, and with nothing else to write the update is refused for lack of valid data |
| Categorias.UpdateTakesStatusNumber | controllers/categoriaController.js:104-120 | The number 2 becomes the row's status and nothing else in the row changes |
| Categorias.UpdateCategoriaKeepsNamesTrimmed | controllers/categoriaController.js:89-120 | Updates preserve the invariant that every stored name is trimmed |
| Categorias.UpdateCategoriaKeepsNamesUnique | controllers/categoriaController.js:89-120 | Updates preserve uniqueness of names up to case |
| Categorias.PutKeepsNamesUnique | controllers/categoriaController.js:92-120 | Replacing a row by one whose name, up to case, no other row holds keeps names unique |
| Categorias.UpdateEchoesUnwrittenName | controllers/categoriaController.js:123-127 | The handler as written answers `nombre: ""` for a blank name it did not store |
| Categorias.UpdateCategoriaEchoingWrites | controllers/categoriaController.js:122-127 | The corrected answer lists the name if and only if it was written and the status if and only if it was supplied, each equal to the stored column; status and table agree with the handler as written |
| Categorias.DeleteCategoria | controllers/categoriaController.js:135-148 | 404 if and only if the id is absent, leaving the table untouched; an existing id always gives 204 with an empty body and exactly that row removed |
| Categorias.DeleteUndoesCreateCategoria | controllers/categoriaController.js:135-144 | Deleting the category a create just added answers 204 and gives back the rows as they were before the create |
| Categorias.DeleteCategoriaKeepsNames | controllers/categoriaController.js:135-144 | Deletion preserves trimmed, case-insensitively unique names |
| Productos.CreateProducto | controllers/productoController.js:24-100 | 201 if and only if every rule passes (name, status, category, price, stock); otherwise 400 names the first failing field and the table is unchanged; on 201 one row is added and the answer is its full view under the new id |
| Productos.NewProducto | controllers/productoController.js:24-81 | The inserted row pins every column to the request: the trimmed name, `Number()` of status (default 1) and category, `Number()` of price and stock or NULL when absent, `imagen \|\| null` of the uploaded file name and `descripcion \|\| null` |
| Productos.CreateProductoFirstFailure | controllers/productoController.js:28-62 | The rules run in source order: when rule `i` fails and all earlier ones pass, the answer is the 400 naming rule `i`'s field |
| Productos.CreateProductoStores | controllers/productoController.js:68-81 | The stored row holds the trimmed name, the `Number()` of the status (1 when absent), which is 1 or 2, the `Number()` of the category, which is positive, NULL exactly for an absent price or stock and their `Number()` otherwise, a non-negative stock, the uploaded file name or NULL when there is none or it is empty, and the description or NULL when it is falsy |
| Productos.CreateProductoIgnoresStoredRows | controllers/productoController.js:64-81 | Creation runs no uniqueness check: two tables with the same counter give the same status and body |
| Productos.PatchOf | controllers/productoController.js:122-174 | The `SET` list writes each column exactly when the request supplies it (the image through the upload, every other column as a body field that is not `undefined`), and writes the trimmed name, `Number()` of status, category, price and stock, `imagen \|\| null` of the file name and `descripcion \|\| null` |
| Productos.UpdateProducto | controllers/productoController.js:102-204 | 200 if and only if some column is supplied, the id exists and every supplied field passes its rule; otherwise no supplied column gives 400, an unknown id 404, a failing rule a 400 naming the first failing field, and the table is unchanged; a 200 changes only row `id`, applying the request's patch, and answers with that patch |
| Productos.UpdateRulesPass | controllers/productoController.js:122-164 | No update rule breaks if and only if every supplied field passes its own check |
| Productos.PatchCoversSupplied | controllers/productoController.js:122-178 | Once the rules pass, the patch writes exactly the supplied columns, so a request that supplies something always writes something |
| Productos.WritesIffGiven | controllers/productoController.js:122-174 | A patch that sets exactly the given fields writes exactly the supplied columns |
| Productos.NoValidDataUnreachable | controllers/productoController.js:176-178 | The "no valid data" answer is never given |
| Productos.EchoAgreesWithApply | controllers/productoController.js:189-199 | The answer lists exactly the columns the patch writes, each equal to the value the row now holds; every column it omits keeps its old value |
| Productos.UpdateProductoAnswersSupplied | controllers/productoController.js:189-199 | A successful update answers with exactly the supplied fields |
| Productos.EchoKeysAreSupplied | controllers/productoController.js:189-197 | The answer built from a request's patch has exactly the supplied columns as keys |
| Productos.UpdateProductoWritesAnswered | controllers/productoController.js:180-199 | Each answered field equals the column now stored, and every column not answered is unchanged |
| Productos.UpdateProductoWritesSupplied | controllers/productoController.js:122-174 | A successful update stores each supplied column as the request gives it, normalised (trimmed name, `Number()` of the numbers, `\|\| null` of image and description), and keeps every column not supplied |
| Productos.UpdateRejectsNegativeStock | controllers/productoController.js:122-161 | For any request and row: once the name, status, category and price rules pass, a supplied stock that is not a whole number of at least zero is refused with 400 naming the stock |
| Productos.DeleteProducto | controllers/productoController.js:206-218 | 404 if and only if the id is absent, leaving the table untouched; an existing id always gives 204 with an empty body and exactly that row removed |
| Productos.DeleteUndoesCreateProducto | controllers/productoController.js:206-213 | Deleting the product a create just added answers 204 and gives back the rows as they were before the create |
| Usuarios.UsuarioView | controllers/usuarioController.js:7-9 | The public view of a user has exactly the columns id, name, e-mail, role and activity flag |
| Usuarios.ViewIgnoresPassword | controllers/usuarioController.js:82-90 | The public view is the same whatever digest the row holds, and carries no password field |
| Usuarios.NewUsuario | controllers/usuarioController.js:63-79 | The inserted row holds the trimmed non-empty name, the trimmed lower-cased non-empty address, the digest of the password, and the role and flag as given, the role among the four accepted and the flag 0 or 1 |
| Usuarios.CreateUsuarioWith | controllers/usuarioController.js:39-95 | A failing rule gives 400 naming the first failing field; a taken address gives 400 Duplicate; a non-string password reaching bcrypt gives 500; 201 holds if and only if none of these apply, and then exactly one row is added and the answer is its public view |
| Usuarios.CreateUsuario | controllers/usuarioController.js:40-57 | As written, a body without `rol` is always refused, so every created user had an explicit role |
| Usuarios.CreateWithoutRolRefused | controllers/usuarioController.js:40-57 | Omitting `rol` with a valid name, address and password fails on the role rule itself |
| Usuarios.CreateUsuarioDefaultingRol | controllers/usuarioController.js:40-57 | With the lower-case default, a created user always has an accepted role, and "operador" when the body omits it |
| Usuarios.CorrectedDefaultPassesRolRule | controllers/usuarioController.js:55-57 | With the corrected default, omitting `rol` never breaks a rule |
| Usuarios.CreateWithoutRolDefaults | controllers/usuarioController.js:40-80 | With the corrected default, a valid body without `rol`, a string password and a free address creates an "operador" |
| Usuarios.CreateUsuarioDuplicate | controllers/usuarioController.js:67-71 | An address some user already holds, after trimming and lower-casing the input, is refused and the table is unchanged |
| Usuarios.CreateRefusesShortPassword | controllers/usuarioController.js:51-53 | Any string password shorter than six UTF-16 code units, the empty one included, is refused with 400 naming the password, the table untouched, once the name and address rules pass |
| Usuarios.CreateUsuarioKeepsEmailsUnique | controllers/usuarioController.js:67-80 | Creation preserves uniqueness of e-mail addresses |
| Usuarios.CreateUsuarioIgnoresDigest | controllers/usuarioController.js:82-90 | The answer of a create does not depend on the hashing primitive: the digest never reaches it |
| Usuarios.CreateUsuarioHidesPassword | controllers/usuarioController.js:82-90 | No answer of a create carries a password field |
| Usuarios.NombreStep | controllers/usuarioController.js:125-131 | An absent name writes nothing; a present one is refused exactly when it is not a non-blank string, and is written trimmed |
| Usuarios.EmailStep | controllers/usuarioController.js:134-151 | An absent address writes nothing; a non-string one throws (500); one that fails the pattern after normalising is refused; one another user holds is a duplicate; otherwise the normalised address is written |
| Usuarios.PasswordStep | controllers/usuarioController.js:154-161 | An absent password writes nothing; a non-string throws (500); it is refused exactly when it is a string shorter than six UTF-16 units; otherwise its digest is written |
| Usuarios.RolStep | controllers/usuarioController.js:164-170 | An absent role writes nothing; a present one is refused exactly when it is not "cliente" or "admin" |
| Usuarios.ActivoStep | controllers/usuarioController.js:173-179 | An absent flag writes nothing; a present one is refused exactly when `Number()` does not give 0 or 1, and is written coerced |
| Usuarios.PlanUpdate | controllers/usuarioController.js:102-184 | A patch is produced if and only if some field counts as present, the id exists and every field passes its step. The refusals come in source order: no field gives 400, an unknown id 404, then the first failing step among name, address, password, role and flag gives that step's answer. A refusal leaves the table untouched; a patch holds exactly what each step keeps |
| Usuarios.UpdateUsuario | controllers/usuarioController.js:98-202 | 200 if and only if the acceptance condition of `PlanUpdate` holds; no present field gives 400, an unknown id 404; only a 200 changes the table, and then only row `id`, answering with the public view of the row as stored |
| Usuarios.UpdateUsuarioWritesSupplied | controllers/usuarioController.js:124-189 | A successful update writes every supplied column, normalised as its rule says, and keeps every other column |
| Usuarios.NoValidDataUnreachable | controllers/usuarioController.js:181-184 | The "no valid data" answer is never given |
| Usuarios.EmptyNameIsNoField | controllers/usuarioController.js:103-107 | A falsy name or address does not count as a field: such a request is refused for want of fields |
| Usuarios.UpdateRefusesVendedor | controllers/usuarioController.js:164-167 | Updates accept a narrower role list than creation: "vendedor" is refused |
| Usuarios.UpdateToOwnEmail | controllers/usuarioController.js:134-151 | With unique addresses, setting a user's address to its own, in any case or spacing, succeeds and leaves the row as it was |
| Usuarios.OwnEmailKept | controllers/usuarioController.js:140-147 | The duplicate check of an update excludes the user itself |
| Usuarios.EmailOnlyPlan | controllers/usuarioController.js:102-184 | A request carrying only an address that passes its step writes that address and nothing else |
| Usuarios.UpdateUsuarioKeepsEmailsUnique | controllers/usuarioController.js:140-151 | Updates preserve uniqueness of e-mail addresses |
| Usuarios.UpdateUsuarioHidesPassword | controllers/usuarioController.js:191-197 | No answer of an update carries a password field |
| Usuarios.DeleteUsuario | controllers/usuarioController.js:206-221 | 404 if and only if the id is absent, leaving the table untouched; an existing id always gives 204 with an empty body and exactly that row removed |
| Usuarios.DeleteUndoesCreateUsuario | controllers/usuarioController.js:206-216 | Deleting the user a create just added answers 204 and gives back the rows as they were before the create |
| Usuarios.DeleteUsuarioKeepsEmailsUnique | controllers/usuarioController.js:206-216 | Deletion preserves uniqueness of e-mail addresses |
| Usuarios.ViewsListRows | controllers/usuarioController.js:7-10 | Every listed item is the public view of the stored row it names |
| Usuarios.ViewsCoverRows | controllers/usuarioController.js:7-10 | When the ids cover the table, every row's public view is listed |
| Usuarios.GetAllUsuarios | controllers/usuarioController.js:5-15 | The listing has one item per stored user, each the public view of its row, newest (largest id) first, and every row appears |
| Usuarios.GetUsuarioById | controllers/usuarioController.js:18-36 | 404 exactly when the id is absent; otherwise 200 with the row's public view; the table is never changed |
| Usuarios.GetAllHidesPassword | controllers/usuarioController.js:7-10 | The listing never carries a password field |
| Usuarios.GetByIdHidesPassword | controllers/usuarioController.js:22-31 | The single read never carries a password field |
| Auth.Login | controllers/authController.js:10-70 | 400 if and only if a credential is falsy; no match gives 401; a wrong password gives 401 with the same body; for credentials that pass and match, 500 if and only if the password is not a string, and otherwise 200 if and only if it verifies against the digest of the lowest-id match; a 200 answers with that user's session; the table is never changed |
| Auth.MissingCredentialsIgnoreTable | controllers/authController.js:13-18 | A missing credential is refused before any lookup: the answer does not depend on the table |
| Auth.LoginGrantsOnlyActiveUsers | controllers/authController.js:21-43 | A session is granted only to an active user whose stored address is exactly the one supplied and whose digest verifies the supplied password |
| Auth.InactiveUserRefused | controllers/authController.js:21-28 | When every user holding the address is inactive, login is refused as invalid credentials |
| Auth.WrongPasswordLooksUnknown | controllers/authController.js:23-43 | A wrong password gets the same status and body as an unknown address |
| Auth.LoginSession | controllers/authController.js:46-62 | The session answer has exactly the success flag, the user object and the token; the token's claims are the user's id, address and role with the eight-hour expiry; the user object has exactly id, name, address and role; no password appears |
| Auth.SessionBodyShape | controllers/authController.js:46-62 | The session body of a user carries claims naming that user and no password field |
| Auth.LoginComplete | controllers/authController.js:10-62 | With a sound hashing primitive and unique addresses, an active user presenting the stored address and the password of the stored digest always logs in as that user |
| Auth.CreatedUserCanLogIn | controllers/authController.js:10-62 | A user created active, with the corrected role default, can log in at once with the stored address and the password given at creation |
| Http.FirstBroken | controllers/productoController.js:28-62 | No rule fails if and only if every rule passes; otherwise the field named is that of a failing rule all of whose predecessors pass |
| Http.FirstBrokenIs | controllers/usuarioController.js:42-61 | The field named is the one of the first failing rule |
| Http.DeleteById | controllers/categoriaController.js:135-148 | 404 exactly when the id is absent; otherwise 204 with an empty body, the row removed and every other row untouched |
| Store.MinOf | controllers/authController.js:30 | The id picked is in the set and no larger than any other; login takes it as `rows[0]` (an assumption, see Left out) |
| Store.RemoveUndoesAdd | controllers/categoriaController.js:138-144 | Removing the row an insert stored under the counter's id gives back the previous rows |
| Store.Descending | controllers/usuarioController.js:8 | The ids in strictly decreasing order, each listed once and all of them present |
| Js.SqlTrimOfTrim | controllers/categoriaController.js:42 | SQL `TRIM` leaves a string trimmed by JavaScript's `trim` unchanged |
| Js.EmailPatternNeedsString | controllers/usuarioController.js:47 | Among the modelled values, only a string passes the e-mail test: every other truthy value converts to text without an `@` (arrays are not modelled, see Left out) |
| Js.EmailPatternNonBlank | controllers/usuarioController.js:47-64 | An address that passes the e-mail test does not trim to nothing |
| Js.NumeralRoundTrip | controllers/productoController.js:74-79 | `Number(String(n))` is `n` for every integer: the text of an integer has no surrounding spaces and parses back to it |
| Js.DecimalValue | controllers/productoController.js:74-79 | The decimal digits written for a natural number read back as that number |

## Left out

- Fractional numbers and other numeral spellings: `Value` has integer numbers only,
  and `Number()` of a string is an optional sign and decimal digits after `trim`;
  decimal points, exponents, hex literals and `Infinity` are not modelled and give
  NaN here.
  - A fraction such as "1.5" is a non-integer number in JavaScript. The integer
    rules refuse it either way, but the source's price rule accepts it and stores
    1.5, while the model refuses it.
  - A string that spells an integer another way, such as "1.0", "1e0" or "0x1", is
    the integer 1 in JavaScript. The source accepts such strings in every rule that
    coerces with `Number()`:
    - the status rules (controllers/categoriaController.js:35, controllers/productoController.js:37 and 135);
    - the category and stock rules (controllers/productoController.js:44, 58, 143 and 159);
    - the update `activo` rule (controllers/usuarioController.js:174).

    The product handlers and the user update then store `Number()` of the string,
    the integer. `createCategoria` sends the string itself to the `INSERT`, and the
    database converts it. The model refuses all of these with 400. For example, in
    the source `CreateProducto` with `idestatus: "1.0"` answers 201 and stores status
    1, and `CreateCategoria` with `idestatus: "1.0"` answers 201. Here both are
    refused with 400 on `idestatus`.
- Number precision: JavaScript numbers are IEEE 754 doubles, so an integer beyond 2^53
  is rounded in the source (9007199254740993 becomes 9007199254740992), while `Num(n)`
  and `Int(n)` keep it exactly. This affects the stock, price, category and status
  values that `PatchOf` and `NewProducto` store from `Number()`, and the integer and
  range checks on them; `activo` is confined to 0 and 1, where doubles are exact.
- Case folding is ASCII only. Both `toLowerCase` and SQL `LOWER` fold only A–Z.
- SQL string comparison is exact equality. MySQL compares under the column's
  collation; the default in MySQL 8, `utf8mb4_0900_ai_ci`, ignores case and accents,
  which would make the e-mail pre-checks and the login lookup looser than modelled.
- Store.MinOf: which row a query without `ORDER BY` lists first is not specified by
  SQL. The model assumes the smallest id, the usual primary-key scan order.
- Arrays: `Value` has no array case. In JavaScript `Number([])` is 0 and `Number([2])`
  is 2, so the source accepts a one-element array where the status, category, price,
  stock and `activo` rules expect a number, and the model does not.
- EmailPatternNeedsString: holds only because arrays are not modelled. In JavaScript
  `String(["a@b.co"])` passes the e-mail test at `usuarioController.js:47`. The
  `email.trim()` at line 64 then throws outside the `try` that starts at line 66, so
  the request is never answered.
- The race between a uniqueness pre-check and its `INSERT`/`UPDATE`: each handler runs
  atomically in the model.
- Database errors are not modelled: connection failures, and a foreign-key violation
  on delete (the 500 of `deleteUsuario` and the others).
  Only exceptions the handlers' own code raises (`trim` or `bcrypt` on a non-string)
  become the 500 `Internal` answer.
- The `fechacreacion` column and the creation timestamp in answers. The listing of
  `getAllUsuarios` orders by creation time; ids are handed out in creation order,
  so the model orders by id descending instead.
- Message texts, the `success: false` flags of login refusals and the `message`
  field of the successful login.
- The JWT secret, signature and token verification: a token is its claim record.
- `bcrypt` salt and cost factor: the primitive is the `Hasher` parameter.
- `getAllCategorias`, `getCategoriaById`, `getAllProductos` and `getProductoById`:
  plain reads outside the mutation logic.
- Routing, the upload middleware (only the stored file name reaches the model),
  `req.params.id` parsing (the id is an integer) and app bootstrapping.
- The `affectedRows === 0` branch after `UPDATE productos`: the row was found just
  before, so in a model without concurrency it cannot happen.
- Auth.Login: a `correo` that is not a string matches no address. MySQL would
  compare it after conversion.
- Usuarios.ShortPassword: an array or object with its own `length` property is not
  modelled; any non-string value has no length, so the length check passes and
  `bcrypt` throws.

## Findings

| source | as written | input that shows it | evidently intended | confidence | as-written member | corrected member |
|---|---|---|---|---|---|---|
| controllers/usuarioController.js:40 | `rol` defaults to "Operador", but the role rule at lines 55-57 accepts only lower-case names, so a body without `rol` is always refused | `{ nombre: "Ana", email: "ana@x.io", password: "secret1" }` is refused with 400 on the role rule | the default is the lower-case "operador", so omitting `rol` creates an operator | high; not executed | Usuarios.CreateWithoutRolRefused | Usuarios.CreateUsuarioDefaultingRol |
| controllers/categoriaController.js:124 | the answer echoes `nombre.trim()` whenever `nombre` is present, even when a blank name was skipped at line 89 and not written | `{ nombre: "  ", idestatus: 2 }` stores only the status but answers `nombre: ""` | the answer lists only the fields written, as the comment at line 122 says | medium; not executed | Categorias.UpdateEchoesUnwrittenName | Categorias.UpdateCategoriaEchoingWrites |

=== FILE: auth.dfy ===
/** The `login` handler: credential presence, the active-user lookup, the password
    check and the signed session. */
module Auth {
  import opened Js
  import opened Store
  import opened Crypto
  import opened Http
  import opened Usuarios

  /** `SELECT * FROM usuarios WHERE email = ? AND activo = 1`: the active users whose
      stored address is exactly `correo`. */
  function Matches(t: Table<Usuario>, correo: string): (ids: set<int>)
    ensures forall id | id in ids :: id in t.rows && t.rows[id].email == correo && t.rows[id].activo == 1
    ensures forall id | id in t.rows && t.rows[id].email == correo && t.rows[id].activo == 1 :: id in ids
  {
    set id | id in t.rows && t.rows[id].email == correo && t.rows[id].activo == 1
  }

  /** The user object of a successful login: `{ idusuario, nombre, email, rol }`. */
  function SessionUser(id: int, u: Usuario): map<Key, Json> {
    map[Idusuario := Scalar(Num(id)),
        Nombre := Scalar(Str(u.nombre)),
        Email := Scalar(Str(u.email)),
        Rol := Scalar(Str(u.rol))]
  }

  /** The body of a successful login: the flag, the user object and the token signed
      over `{ id, email, rol }`. */
  function SessionBody(id: int, u: Usuario): map<Key, Json> {
    map[Success := Scalar(Bool(true)),
        UsuarioKey := Obj(SessionUser(id, u)),
        TokenKey := Jwt(Sign(Claims(id, u.email, u.rol)))]
  }

  /** `login`; `h` is the hashing primitive, of which only `verify` is used. A `correo`
      that is not a string matches no address. */
  function Login(h: Hasher, body: Payload, t: Table<Usuario>): (r: Response<Usuario>)
    ensures r.table == t
    ensures r.status in {200, 400, 401, 500}
    ensures r.status == 400 <==> !Truthy(Field(body, Correo)) || !Truthy(Field(body, Clave))
    ensures r.status == 400 ==> r.body == Error(MissingCredentials)
    ensures r.status == 401 ==> r.body == Error(BadCredentials)
    ensures r.status == 500 ==> r.body == Error(Internal)
    ensures Truthy(Field(body, Correo)) && Truthy(Field(body, Clave))
            && (!Field(body, Correo).Str? || Matches(t, Field(body, Correo).s) == {})
            ==> r.status == 401
    ensures Truthy(Field(body, Correo)) && Truthy(Field(body, Clave))
            && Field(body, Correo).Str? && Matches(t, Field(body, Correo).s) != {}
            ==> (r.status == 500 <==> !Field(body, Clave).Str?)
    ensures Truthy(Field(body, Correo)) && Truthy(Field(body, Clave))
            && Field(body, Correo).Str? && Matches(t, Field(body, Correo).s) != {} && Field(body, Clave).Str?
            ==> (r.status == 200 <==> h.verify(Field(body, Clave).s, t.rows[MinOf(Matches(t, Field(body, Correo).s))].password))
    ensures r.status == 200 ==>
              && Field(body, Correo).Str? && Field(body, Clave).Str?
              && Matches(t, Field(body, Correo).s) != {}
              && var id := MinOf(Matches(t, Field(body, Correo).s));
                 && h.verify(Field(body, Clave).s, t.rows[id].password)
                 && r.body == Obj(SessionBody(id, t.rows[id]))
  {
    var correo := Field(body, Correo);
    var clave := Field(body, Clave);
    if !Truthy(correo) || !Truthy(clave) then Reject(400, MissingCredentials, t)
    else
      var found := if correo.Str? then Matches(t, correo.s) else {};
      if found == {} then Reject(401, BadCredentials, t)
      else
        // the first row of a query without `ORDER BY`: the smallest id
        var id := MinOf(found);
        // `bcrypt.compare` throws on anything but a string
        if !clave.Str? then Reject(500, Internal, t)
        else if !h.verify(clave.s, t.rows[id].password) then Reject(401, BadCredentials, t)
        else Response(200, Obj(SessionBody(id, t.rows[id])), t)
  }

  /** A missing credential is refused without looking at the table: the answer is the
      same whatever the table holds. */
  lemma MissingCredentialsIgnoreTable(h: Hasher, body: Payload, t1: Table<Usuario>, t2: Table<Usuario>)
    requires !Truthy(Field(body, Correo)) || !Truthy(Field(body, Clave))
    ensures Login(h, body, t1).status == Login(h, body, t2).status == 400
    ensures Login(h, body, t1).body == Login(h, body, t2).body
  {
  }

  /** A session is only ever granted to an active user whose stored address is exactly
      the one supplied, and whose stored digest verifies the supplied password. */
  lemma LoginGrantsOnlyActiveUsers(h: Hasher, body: Payload, t: Table<Usuario>)
    requires Login(h, body, t).status == 200
    ensures var tok := Login(h, body, t).body.fields[TokenKey].token;
            && tok.claims.id in t.rows
            && t.rows[tok.claims.id].activo == 1
            && Field(body, Correo) == Str(t.rows[tok.claims.id].email)
            && Field(body, Clave).Str?
            && h.verify(Field(body, Clave).s, t.rows[tok.claims.id].password)
  {
  }

  /** An inactive user never logs in, even with the right password: when every user
      holding the address is inactive the answer is the "invalid credentials" refusal. */
  lemma InactiveUserRefused(h: Hasher, body: Payload, t: Table<Usuario>)
    requires Truthy(Field(body, Correo)) && Truthy(Field(body, Clave)) && Field(body, Correo).Str?
    requires forall id | id in t.rows && t.rows[id].email == Field(body, Correo).s :: t.rows[id].activo != 1
    ensures Login(h, body, t) == Reject(401, BadCredentials, t)
  {
    var found := Matches(t, Field(body, Correo).s);
    assert forall k :: k !in found;
    assert found == {};
  }

  /** A wrong password is answered exactly as an unknown address is: the two refusals
      cannot be told apart. */
  lemma WrongPasswordLooksUnknown(h: Hasher, body: Payload, t: Table<Usuario>, empty: Table<Usuario>)
    requires Truthy(Field(body, Correo)) && Truthy(Field(body, Clave))
    requires Field(body, Correo).Str? && Field(body, Clave).Str?
    requires Matches(t, Field(body, Correo).s) != {}
    requires !h.verify(Field(body, Clave).s, t.rows[MinOf(Matches(t, Field(body, Correo).s))].password)
    requires Matches(empty, Field(body, Correo).s) == {}
    ensures Login(h, body, t).status == Login(h, body, empty).status == 401
    ensures Login(h, body, t).body == Login(h, body, empty).body
  {
  }

  /** The session of a successful login: the token carries exactly the user's id,
      address and role with the eight-hour expiry, and the user object exactly its id,
      name, address and role, with no password anywhere in the body. */
  lemma LoginSession(h: Hasher, body: Payload, t: Table<Usuario>)
    requires Login(h, body, t).status == 200
    ensures var b := Login(h, body, t).body;
            && b.Obj? && b.fields.Keys == {Success, UsuarioKey, TokenKey}
            && b.fields[Success] == Scalar(Bool(true))
            && b.fields[TokenKey].Jwt?
            && var c := b.fields[TokenKey].token.claims;
               && c.id in t.rows
               && c == Claims(c.id, t.rows[c.id].email, t.rows[c.id].rol)
               && b.fields[TokenKey].token.expiresIn == SessionSeconds
               && b.fields[UsuarioKey].Obj?
               && b.fields[UsuarioKey].fields.Keys == {Idusuario, Nombre, Email, Rol}
               && b.fields[UsuarioKey].fields[Idusuario] == Scalar(Num(c.id))
               && b.fields[UsuarioKey].fields[Nombre] == Scalar(Str(t.rows[c.id].nombre))
               && b.fields[UsuarioKey].fields[Email] == Scalar(Str(t.rows[c.id].email))
               && b.fields[UsuarioKey].fields[Rol] == Scalar(Str(t.rows[c.id].rol))
    ensures HidesPassword(Login(h, body, t).body)
  {
    var id := MinOf(Matches(t, Field(body, Correo).s));
    assert Login(h, body, t).body == Obj(SessionBody(id, t.rows[id]));
    SessionBodyShape(id, t.rows[id]);
  }

  /** The session body of user `id`: the claims name that user, and no field holds a
      password. */
  lemma SessionBodyShape(id: int, u: Usuario)
    ensures var b := SessionBody(id, u);
            && b.Keys == {Success, UsuarioKey, TokenKey}
            && b[TokenKey].token.claims == Claims(id, u.email, u.rol)
            && b[TokenKey].token.expiresIn == SessionSeconds
            && b[UsuarioKey].fields.Keys == {Idusuario, Nombre, Email, Rol}
    ensures HidesPassword(Obj(SessionBody(id, u)))
  {
    var b := SessionBody(id, u);
    assert HidesPassword(Obj(SessionUser(id, u)));
    assert b.Keys == {Success, UsuarioKey, TokenKey};
  }

  /** With a sound primitive and unique addresses, an active user who presents the
      stored address and the password the digest was made from always logs in, as
      that user. */
  lemma LoginComplete(h: Hasher, id: int, p: string, t: Table<Usuario>)
    requires Sound(h) && UniqueEmails(t)
    requires id in t.rows && t.rows[id].activo == 1 && t.rows[id].password == h.hash(p)
    requires t.rows[id].email != "" && p != ""
    ensures var r := Login(h, map[Correo := Str(t.rows[id].email), Clave := Str(p)], t);
            && r.status == 200
            && r.body == Obj(SessionBody(id, t.rows[id]))
  {
    var found := Matches(t, t.rows[id].email);
    assert found == {id} by {
      forall k | k in found ensures k == id {
        assert t.rows[k].email == t.rows[id].email;
      }
    }
    assert MinOf(found) == id;
  }

  /** A user created active, with a sound primitive and unique addresses, can log in
      at once with the stored address and the password given at creation, and the
      session is theirs. */
  lemma CreatedUserCanLogIn(h: Hasher, body: Payload, t: Table<Usuario>)
    requires Sound(h) && Valid(t) && UniqueEmails(t)
    requires Field(body, Activo) == Undef || Field(body, Activo) == Num(1)
    requires CreateUsuarioDefaultingRol(h, body, t).status == 201
    ensures var t' := CreateUsuarioDefaultingRol(h, body, t).table;
            && t.next in t'.rows
            && var r := Login(h, map[Correo := Str(t'.rows[t.next].email), Clave := Field(body, Password)], t');
               && r.status == 200
               && r.body == Obj(SessionBody(t.next, t'.rows[t.next]))
  {
    var r := CreateUsuarioWith("operador", h, body, t);
    assert CreateUsuarioDefaultingRol(h, body, t) == r;
    var u := NewUsuario("operador", h, body);
    assert r.table.rows[t.next] == u;
    CreateUsuarioKeepsEmailsUnique("operador", h, body, t);
    assert CreateRules(body, "operador")[2].ok;
    LoginComplete(h, t.next, Field(body, Password).s, r.table);
  }
}

=== FILE: categorias.dfy ===
/** The category handlers: `createCategoria`, `updateCategoria` and `deleteCategoria`. */
module Categorias {
  import opened Js
  import opened Store
  import opened Http

  datatype Categoria = Categoria(nombre: string, idestatus: int)

  /** `SELECT ... WHERE LOWER(TRIM(nombre)) = key`, ignoring the rows in `excluded`. */
  predicate NameTaken(t: Table<Categoria>, key: string, excluded: set<int>) {
    exists id | id in t.rows && id !in excluded :: Lower(SqlTrim(t.rows[id].nombre)) == key
  }

  /** Every stored name is already trimmed, as both handlers write it. */
  ghost predicate TrimmedNames(t: Table<Categoria>) {
    forall id | id in t.rows :: Trim(t.rows[id].nombre) == t.rows[id].nombre
  }

  /** No two categories share a name up to ASCII case. */
  ghost predicate UniqueNames(t: Table<Categoria>) {
    forall i, j | i in t.rows && j in t.rows && i != j :: Lower(t.rows[i].nombre) != Lower(t.rows[j].nombre)
  }

  /** `createCategoria`. */
  function CreateCategoria(body: Payload, t: Table<Categoria>): (r: Response<Categoria>)
    requires Valid(t)
    ensures Valid(r.table)
    ensures r.status == 201 || r.status == 400
    ensures r.status == 400 ==> r.table == t
    ensures !IsNonBlankString(Field(body, Nombre)) ==> r == Reject(400, Invalid(Nombre), t)
    ensures IsNonBlankString(Field(body, Nombre)) && !NumberIn(FieldOr(body, Idestatus, Num(1)), 1, 2)
            ==> r == Reject(400, Invalid(Idestatus), t)
    ensures IsNonBlankString(Field(body, Nombre)) && NumberIn(FieldOr(body, Idestatus, Num(1)), 1, 2)
            ==> (r.status == 201 <==> !NameTaken(t, Lower(Trim(Field(body, Nombre).s)), {}))
    ensures r.status == 400 && IsNonBlankString(Field(body, Nombre)) && NumberIn(FieldOr(body, Idestatus, Num(1)), 1, 2)
            ==> r == Reject(400, Duplicate(Nombre), t)
    ensures r.status == 201 ==>
              && t.next in r.table.rows
              && AddsRow(t, r.table, r.table.rows[t.next])
              && IsNonBlankString(Field(body, Nombre))
              && r.table.rows[t.next].nombre == Trim(Field(body, Nombre).s)
              && NumberIn(FieldOr(body, Idestatus, Num(1)), 1, 2)
              && ToNumber(FieldOr(body, Idestatus, Num(1))) == Int(r.table.rows[t.next].idestatus)
    ensures r.status == 201 ==>
              r.body == Obj(map[Id := Scalar(Num(t.next)),
                                Nombre := Scalar(Str(Trim(Field(body, Nombre).s))),
                                Idestatus := Scalar(FieldOr(body, Idestatus, Num(1)))])
  {
    var nombre := Field(body, Nombre);
    var idestatus := FieldOr(body, Idestatus, Num(1));
    if !(Truthy(nombre) && IsNonBlankString(nombre)) then Reject(400, Invalid(Nombre), t)
    else
      var clean := Trim(nombre.s);
      if !NumberIn(idestatus, 1, 2) then Reject(400, Invalid(Idestatus), t)
      else if NameTaken(t, Lower(clean), {}) then Reject(400, Duplicate(Nombre), t)
      else
        var row := Categoria(clean, ToNumber(idestatus).i);
        InsertAddsOneRow(t, row);
        Response(201,
                 Obj(map[Id := Scalar(Num(t.next)), Nombre := Scalar(Str(clean)), Idestatus := Scalar(idestatus)]),
                 Insert(t, row))
  }

  /** On a table of trimmed names the SQL pre-check compares plain lower-cased names. */
  lemma NameTakenOnTrimmed(t: Table<Categoria>, key: string, excluded: set<int>)
    requires TrimmedNames(t)
    ensures NameTaken(t, key, excluded) <==> exists id | id in t.rows && id !in excluded :: Lower(t.rows[id].nombre) == key
  {
    forall id | id in t.rows
      ensures SqlTrim(t.rows[id].nombre) == t.rows[id].nombre
    {
      SqlTrimOfTrim(t.rows[id].nombre);
    }
  }

  /** Creating a category clashes exactly when some stored name equals the trimmed
      input up to case, whatever the spacing around the input. */
  lemma CreateCategoriaDuplicate(body: Payload, t: Table<Categoria>)
    requires Valid(t) && TrimmedNames(t)
    requires IsNonBlankString(Field(body, Nombre)) && NumberIn(FieldOr(body, Idestatus, Num(1)), 1, 2)
    ensures var r := CreateCategoria(body, t);
            (r.status == 400 <==> exists id | id in t.rows :: Lower(t.rows[id].nombre) == Lower(Trim(Field(body, Nombre).s)))
            && (r.status == 400 ==> r == Reject(400, Duplicate(Nombre), t))
            && (r.status == 201 ==> |r.table.rows| == |t.rows| + 1)
  {
    NameTakenOnTrimmed(t, Lower(Trim(Field(body, Nombre).s)), {});
    var r := CreateCategoria(body, t);
    if r.status == 201 {
      InsertAddsOneRow(t, r.table.rows[t.next]);
    }
  }

  /** Creation keeps names trimmed. */
  lemma CreateCategoriaKeepsNamesTrimmed(body: Payload, t: Table<Categoria>)
    requires Valid(t) && TrimmedNames(t)
    ensures TrimmedNames(CreateCategoria(body, t).table)
  {
    var r := CreateCategoria(body, t);
    if r.status == 201 {
      var s := Field(body, Nombre).s;
      TrimIdempotent(s);
      forall k | k in r.table.rows
        ensures Trim(r.table.rows[k].nombre) == r.table.rows[k].nombre
      {
        if k == t.next {
          assert r.table.rows[k].nombre == Trim(s);
        } else {
          assert r.table.rows[k] == t.rows[k];
        }
      }
    }
  }

  /** Creation keeps names unique up to case. */
  lemma CreateCategoriaKeepsNamesUnique(body: Payload, t: Table<Categoria>)
    requires Valid(t) && TrimmedNames(t) && UniqueNames(t)
    ensures UniqueNames(CreateCategoria(body, t).table)
  {
    var r := CreateCategoria(body, t);
    if r.status == 201 {
      CreateCategoriaDuplicate(body, t);
      InsertKeepsNamesUnique(t, r.table.rows[t.next]);
    }
  }

  /** Adding a row whose name no stored row holds keeps names unique. */
  lemma InsertKeepsNamesUnique(t: Table<Categoria>, row: Categoria)
    requires Valid(t) && UniqueNames(t)
    requires forall k | k in t.rows :: Lower(t.rows[k].nombre) != Lower(row.nombre)
    ensures UniqueNames(Insert(t, row))
  {
    var rows := Insert(t, row).rows;
    forall i, j | i in rows && j in rows && i != j
      ensures Lower(rows[i].nombre) != Lower(rows[j].nombre)
    {
      if i != t.next && j != t.next {
        assert rows[i] == t.rows[i] && rows[j] == t.rows[j];
      }
    }
  }

  /** Once a name is created, a second create of the same name, in any case or spacing,
      is refused as a duplicate. */
  lemma SecondCreateClashes(first: Payload, second: Payload, t: Table<Categoria>)
    requires Valid(t) && TrimmedNames(t) && CreateCategoria(first, t).status == 201
    requires IsNonBlankString(Field(second, Nombre)) && NumberIn(FieldOr(second, Idestatus, Num(1)), 1, 2)
    requires Lower(Trim(Field(second, Nombre).s)) == Lower(Trim(Field(first, Nombre).s))
    ensures var t' := CreateCategoria(first, t).table;
            CreateCategoria(second, t') == Reject(400, Duplicate(Nombre), t')
  {
    var t' := CreateCategoria(first, t).table;
    CreateCategoriaKeepsNamesTrimmed(first, t);
    assert t.next in t'.rows && Lower(t'.rows[t.next].nombre) == Lower(Trim(Field(second, Nombre).s));
    CreateCategoriaDuplicate(second, t');
  }


  /** The columns an update writes; a name is written only when it is not blank. */
  datatype CategoriaPatch = CategoriaPatch(nombre: Option<string>, idestatus: Option<int>)

  function ApplyCategoria(row: Categoria, p: CategoriaPatch): Categoria {
    Categoria(Override(row.nombre, p.nombre), Override(row.idestatus, p.idestatus))
  }

  /** Where the checks of `updateCategoria` leave the request: refused, or ready to write. */
  datatype Plan = Refuse(response: Response<Categoria>) | Write(patch: CategoriaPatch)

  /** When `updateCategoria` writes: the row exists, a name present is a string that,
      unless blank, no other row holds, a status present is the number 1 or 2, and at
      least one of the two is to be written. */
  predicate UpdateAccepted(id: int, body: Payload, t: Table<Categoria>) {
    var nombre := Field(body, Nombre);
    var idestatus := Field(body, Idestatus);
    && id in t.rows
    && (nombre == Undef || nombre.Str?)
    && (IsNonBlankString(nombre) ==> !NameTaken(t, Lower(Trim(nombre.s)), {id}))
    && (idestatus == Undef || idestatus == Num(1) || idestatus == Num(2))
    && (IsNonBlankString(nombre) || idestatus != Undef)
  }

  /** `updateCategoria` up to the `UPDATE`: presence, existence, name (with its
      self-excluding duplicate check), then status. */
  function PlanUpdate(id: int, body: Payload, t: Table<Categoria>): (p: Plan)
    ensures p.Write? <==> UpdateAccepted(id, body, t)
    ensures p.Refuse? ==> p.response.table == t && p.response.status in {400, 404, 500}
    // the refusals, in the order the handler tries them
    ensures Field(body, Nombre) == Undef && Field(body, Idestatus) == Undef
            ==> p == Refuse(Reject(400, MissingFields, t))
    ensures (Field(body, Nombre) != Undef || Field(body, Idestatus) != Undef) && id !in t.rows
            ==> p == Refuse(Reject(404, NotFound, t))
    ensures id in t.rows && Field(body, Nombre) != Undef && !Field(body, Nombre).Str?
            ==> p == Refuse(Reject(500, Internal, t))
    ensures id in t.rows && IsNonBlankString(Field(body, Nombre)) && NameTaken(t, Lower(Trim(Field(body, Nombre).s)), {id})
            ==> p == Refuse(Reject(400, Duplicate(Nombre), t))
    ensures && id in t.rows
            && (Field(body, Nombre) == Undef || Field(body, Nombre).Str?)
            && (IsNonBlankString(Field(body, Nombre)) ==> !NameTaken(t, Lower(Trim(Field(body, Nombre).s)), {id}))
            && Field(body, Idestatus) !in {Undef, Num(1), Num(2)}
            ==> p == Refuse(Reject(400, Invalid(Idestatus), t))
    ensures id in t.rows && Field(body, Nombre).Str? && !IsNonBlankString(Field(body, Nombre)) && Field(body, Idestatus) == Undef
            ==> p == Refuse(Reject(400, NoValidData, t))
    ensures p.Write? ==> id in t.rows && p.patch != CategoriaPatch(None, None)
    ensures p.Write? ==>
              && (Field(body, Nombre) == Undef || Field(body, Nombre).Str?)
              && p.patch.nombre == (if IsNonBlankString(Field(body, Nombre)) then Some(Trim(Field(body, Nombre).s)) else None)
              && (p.patch.nombre.Some? ==> !NameTaken(t, Lower(p.patch.nombre.value), {id}))
              && (Field(body, Idestatus) == Undef || Field(body, Idestatus) in {Num(1), Num(2)})
              && p.patch.idestatus == (if Field(body, Idestatus) == Undef then None else Some(Field(body, Idestatus).n))
  {
    var nombre := Field(body, Nombre);
    var idestatus := Field(body, Idestatus);
    if nombre == Undef && idestatus == Undef then Refuse(Reject(400, MissingFields, t))
    else if id !in t.rows then Refuse(Reject(404, NotFound, t))
    // `nombre.trim()` throws on anything but a string
    else if nombre != Undef && !nombre.Str? then Refuse(Reject(500, Internal, t))
    else if IsNonBlankString(nombre) && NameTaken(t, Lower(Trim(nombre.s)), {id}) then
      Refuse(Reject(400, Duplicate(Nombre), t))
    // strict: `typeof idestatus !== 'number'` refuses "1"
    else if idestatus != Undef && idestatus != Num(1) && idestatus != Num(2) then
      Refuse(Reject(400, Invalid(Idestatus), t))
    else
      var patch := CategoriaPatch(if IsNonBlankString(nombre) then Some(Trim(nombre.s)) else None,
                                  if idestatus != Undef then Some(idestatus.n) else None);
      if patch == CategoriaPatch(None, None) then Refuse(Reject(400, NoValidData, t))
      else Write(patch)
  }

  /** The body `updateCategoria` answers with: every field present in the request,
      the name trimmed, even when a blank name was not written. */
  function EchoSupplied(body: Payload): (m: map<Key, Json>)
    requires Field(body, Nombre) == Undef || Field(body, Nombre).Str?
    ensures Nombre in m <==> Field(body, Nombre) != Undef
    ensures Nombre in m ==> m[Nombre] == Scalar(Str(Trim(Field(body, Nombre).s)))
    ensures Idestatus in m <==> Field(body, Idestatus) != Undef
    ensures Idestatus in m ==> m[Idestatus] == Scalar(Field(body, Idestatus))
    ensures m.Keys <= {Nombre, Idestatus}
  {
    var nombre := Field(body, Nombre);
    var idestatus := Field(body, Idestatus);
    if nombre == Undef && idestatus == Undef then map[]
    else if nombre == Undef then map[Idestatus := Scalar(idestatus)]
    else if idestatus == Undef then map[Nombre := Scalar(Str(Trim(nombre.s)))]
    else map[Nombre := Scalar(Str(Trim(nombre.s))), Idestatus := Scalar(idestatus)]
  }

  /** `updateCategoria`. */
  function UpdateCategoria(id: int, body: Payload, t: Table<Categoria>): (r: Response<Categoria>)
    ensures r.status == 200 <==> UpdateAccepted(id, body, t)
    ensures r.status in {200, 400, 404, 500}
    ensures r.status != 200 ==> r.table == t
    ensures Valid(t) ==> Valid(r.table)
    ensures Field(body, Nombre) == Undef && Field(body, Idestatus) == Undef ==> r == Reject(400, MissingFields, t)
    ensures (Field(body, Nombre) != Undef || Field(body, Idestatus) != Undef) && id !in t.rows
            ==> r == Reject(404, NotFound, t)
    ensures r.status == 200 ==>
              && id in t.rows
              && OnlyRowChanged(t, r.table, id)
              && r.table.rows[id].nombre ==
                   (if IsNonBlankString(Field(body, Nombre)) then Trim(Field(body, Nombre).s) else t.rows[id].nombre)
              && (Field(body, Idestatus) == Undef || Field(body, Idestatus) in {Num(1), Num(2)})
              && r.table.rows[id].idestatus ==
                   (if Field(body, Idestatus) != Undef then Field(body, Idestatus).n else t.rows[id].idestatus)
    // the answer echoes every supplied field, the name trimmed even when it was blank and not written
    ensures r.status == 200 ==>
              && r.body.Obj? && r.body.fields.Keys <= {Nombre, Idestatus}
              && (Nombre in r.body.fields <==> Field(body, Nombre) != Undef)
              && (Nombre in r.body.fields ==> Field(body, Nombre).Str? && r.body.fields[Nombre] == Scalar(Str(Trim(Field(body, Nombre).s))))
              && (Idestatus in r.body.fields <==> Field(body, Idestatus) != Undef)
              && (Idestatus in r.body.fields ==> r.body.fields[Idestatus] == Scalar(Field(body, Idestatus)))
  {
    match PlanUpdate(id, body, t)
    case Refuse(response) => response
    case Write(patch) =>
      PutFrame(t, id, ApplyCategoria(t.rows[id], patch));
      Response(200, Obj(EchoSupplied(body)), Put(t, id, ApplyCategoria(t.rows[id], patch)))
  }

  /** Renaming a category to its own name, in any case or spacing, is never a clash. */
  lemma RenameToOwnName(id: int, s: string, t: Table<Categoria>)
    requires TrimmedNames(t) && UniqueNames(t)
    requires id in t.rows && Trim(s) != "" && Lower(Trim(s)) == Lower(t.rows[id].nombre)
    ensures var r := UpdateCategoria(id, map[Nombre := Str(s)], t);
            r.status == 200 && r.table.rows[id].nombre == Trim(s)
  {
    OwnNameFree(id, s, t);
    RenamePlan(id, s, t);
  }

  /** With unique names, no other category holds a category's own name. */
  lemma OwnNameFree(id: int, s: string, t: Table<Categoria>)
    requires TrimmedNames(t) && UniqueNames(t)
    requires id in t.rows && Lower(Trim(s)) == Lower(t.rows[id].nombre)
    ensures !NameTaken(t, Lower(Trim(s)), {id})
  {
    NameTakenOnTrimmed(t, Lower(Trim(s)), {id});
    forall k | k in t.rows && k != id
      ensures Lower(t.rows[k].nombre) != Lower(Trim(s))
    {
    }
  }

  /** A request carrying only a non-blank name no other category holds writes just
      that name, trimmed. */
  lemma RenamePlan(id: int, s: string, t: Table<Categoria>)
    requires id in t.rows && Trim(s) != "" && !NameTaken(t, Lower(Trim(s)), {id})
    ensures PlanUpdate(id, map[Nombre := Str(s)], t) == Write(CategoriaPatch(Some(Trim(s)), None))
  {
    var body := map[Nombre := Str(s)];
    assert Field(body, Nombre) == Str(s) && Field(body, Idestatus) == Undef;
    assert IsNonBlankString(Field(body, Nombre));
  }

  /** Renaming a category to another category's name, in any case or spacing, is refused. */
  lemma RenameToOtherName(id: int, other: int, body: Payload, t: Table<Categoria>)
    requires TrimmedNames(t)
    requires id in t.rows && other in t.rows && other != id
    requires IsNonBlankString(Field(body, Nombre))
    requires Lower(Trim(Field(body, Nombre).s)) == Lower(t.rows[other].nombre)
    ensures UpdateCategoria(id, body, t) == Reject(400, Duplicate(Nombre), t)
  {
    OtherNameTaken(id, other, Lower(Trim(Field(body, Nombre).s)), t);
    assert PlanUpdate(id, body, t) == Refuse(Reject(400, Duplicate(Nombre), t));
  }

  /** Another category's name, lower-cased, is taken for the self-excluding check. */
  lemma OtherNameTaken(id: int, other: int, key: string, t: Table<Categoria>)
    requires TrimmedNames(t)
    requires other in t.rows && other != id && key == Lower(t.rows[other].nombre)
    ensures NameTaken(t, key, {id})
  {
    NameTakenOnTrimmed(t, key, {id});
    assert other !in {id};
  }

  /** Unlike creation, an update takes the status only as the number 1 or 2: the string
      "1" is refused. */
  lemma UpdateRefusesStatusString(id: int, t: Table<Categoria>)
    requires id in t.rows
    ensures UpdateCategoria(id, map[Idestatus := Str("1")], t) == Reject(400, Invalid(Idestatus), t)
  {
    var body := map[Idestatus := Str("1")];
    assert Field(body, Nombre) == Undef;
    assert PlanUpdate(id, body, t) == Refuse(Reject(400, Invalid(Idestatus), t));
  }

  /** A name of spaces alone is skipped, and with nothing else to write the update is refused. */
  lemma UpdateRefusesBlankName(id: int, t: Table<Categoria>)
    requires id in t.rows
    ensures UpdateCategoria(id, map[Nombre := Str("  ")], t) == Reject(400, NoValidData, t)
  {
    var body := map[Nombre := Str("  ")];
    SpacesAreBlank();
    assert Field(body, Nombre) == Str("  ") && Field(body, Idestatus) == Undef;
    assert PlanUpdate(id, body, t) == Refuse(Reject(400, NoValidData, t));
  }

  /** Two spaces are not a name. */
  lemma SpacesAreBlank()
    ensures !IsNonBlankString(Str("  "))
  {
    assert Trim("  ") == "";
  }

  /** The number 2 is taken as the new status and nothing else changes in the row. */
  lemma UpdateTakesStatusNumber(id: int, t: Table<Categoria>)
    requires id in t.rows
    ensures UpdateCategoria(id, map[Idestatus := Num(2)], t).table.rows[id] == t.rows[id].(idestatus := 2)
  {
    var body := map[Idestatus := Num(2)];
    assert Field(body, Nombre) == Undef;
    assert PlanUpdate(id, body, t) == Write(CategoriaPatch(None, Some(2)));
  }

  /** Updates keep names trimmed. */
  lemma UpdateCategoriaKeepsNamesTrimmed(id: int, body: Payload, t: Table<Categoria>)
    requires TrimmedNames(t)
    ensures TrimmedNames(UpdateCategoria(id, body, t).table)
  {
    match PlanUpdate(id, body, t)
    case Refuse(_) =>
    case Write(patch) =>
      var t' := Put(t, id, ApplyCategoria(t.rows[id], patch));
      assert UpdateCategoria(id, body, t).table == t';
      forall k | k in t'.rows
        ensures Trim(t'.rows[k].nombre) == t'.rows[k].nombre
      {
        if k != id {
          assert t'.rows[k] == t.rows[k];
        } else if patch.nombre.Some? {
          TrimIdempotent(Field(body, Nombre).s);
        } else {
          assert t'.rows[k].nombre == t.rows[id].nombre;
        }
      }
  }

  /** Updates keep names unique up to case: the duplicate check skips only the row itself. */
  lemma UpdateCategoriaKeepsNamesUnique(id: int, body: Payload, t: Table<Categoria>)
    requires TrimmedNames(t) && UniqueNames(t)
    ensures UniqueNames(UpdateCategoria(id, body, t).table)
  {
    var p := PlanUpdate(id, body, t);
    if p.Write? {
      UpdateCategoriaWrites(id, body, t);
      PatchNameFree(id, p.patch, t);
      PutKeepsNamesUnique(t, id, ApplyCategoria(t.rows[id], p.patch));
    }
  }

  /** A planned update stores the patched row and nothing else. */
  lemma UpdateCategoriaWrites(id: int, body: Payload, t: Table<Categoria>)
    requires PlanUpdate(id, body, t).Write?
    ensures id in t.rows
    ensures UpdateCategoria(id, body, t).table == Put(t, id, ApplyCategoria(t.rows[id], PlanUpdate(id, body, t).patch))
  {
  }

  /** A patch whose name, if any, passed the self-excluding check leaves the row with a
      name no other row holds. */
  lemma PatchNameFree(id: int, patch: CategoriaPatch, t: Table<Categoria>)
    requires TrimmedNames(t) && UniqueNames(t) && id in t.rows
    requires patch.nombre.Some? ==> !NameTaken(t, Lower(patch.nombre.value), {id})
    ensures forall k | k in t.rows && k != id :: Lower(t.rows[k].nombre) != Lower(ApplyCategoria(t.rows[id], patch).nombre)
  {
    if patch.nombre.Some? {
      NameTakenOnTrimmed(t, Lower(patch.nombre.value), {id});
    }
  }

  /** Replacing a row by one whose name no other row holds keeps names unique. */
  lemma PutKeepsNamesUnique(t: Table<Categoria>, id: int, row: Categoria)
    requires UniqueNames(t) && id in t.rows
    requires forall k | k in t.rows && k != id :: Lower(t.rows[k].nombre) != Lower(row.nombre)
    ensures UniqueNames(Put(t, id, row))
  {
    var rows := Put(t, id, row).rows;
    forall i, j | i in rows && j in rows && i != j
      ensures Lower(rows[i].nombre) != Lower(rows[j].nombre)
    {
      if i != id && j != id {
        assert rows[i] == t.rows[i] && rows[j] == t.rows[j];
      }
    }
  }

  /** `updateCategoria` echoes a blank name it did not write: `{ nombre: "  ", idestatus: 2 }`
      stores only the status yet answers `nombre: ""`. */
  lemma UpdateEchoesUnwrittenName(id: int, t: Table<Categoria>)
    requires id in t.rows
    ensures var r := UpdateCategoria(id, map[Nombre := Str("  "), Idestatus := Num(2)], t);
            && r.status == 200
            && r.table.rows[id].nombre == t.rows[id].nombre
            && r.body.Obj? && Nombre in r.body.fields && r.body.fields[Nombre] == Scalar(Str(""))
  {
    var body := map[Nombre := Str("  "), Idestatus := Num(2)];
    assert Field(body, Nombre) == Str("  ") && Field(body, Idestatus) == Num(2);
    SpacesAreBlank();
    assert Trim("  ") == "";
    var patch := CategoriaPatch(None, Some(2));
    assert PlanUpdate(id, body, t) == Write(patch);
    assert EchoSupplied(body)[Nombre] == Scalar(Str(""));
    assert ApplyCategoria(t.rows[id], patch).nombre == t.rows[id].nombre;
  }

  /** The body an update evidently means to send: the columns it wrote. */
  function EchoWritten(p: CategoriaPatch): (m: map<Key, Json>)
    ensures Nombre in m <==> p.nombre.Some?
    ensures Nombre in m ==> m[Nombre] == Scalar(Str(p.nombre.value))
    ensures Idestatus in m <==> p.idestatus.Some?
    ensures Idestatus in m ==> m[Idestatus] == Scalar(Num(p.idestatus.value))
  {
    (if p.nombre.Some? then map[Nombre := Scalar(Str(p.nombre.value))] else map[])
    + (if p.idestatus.Some? then map[Idestatus := Scalar(Num(p.idestatus.value))] else map[])
  }

  /** `updateCategoria` answering with what it wrote: every echoed field equals the
      stored column, and a skipped blank name is not echoed. */
  function UpdateCategoriaEchoingWrites(id: int, body: Payload, t: Table<Categoria>): (r: Response<Categoria>)
    ensures r.status != 200 ==> r == UpdateCategoria(id, body, t)
    ensures r.status == 200 ==> r.table == UpdateCategoria(id, body, t).table
    ensures r.status == 200 ==>
              && id in r.table.rows && r.body.Obj?
              && (Nombre in r.body.fields <==> IsNonBlankString(Field(body, Nombre)))
              && (Nombre in r.body.fields ==> r.body.fields[Nombre] == Scalar(Str(r.table.rows[id].nombre)))
              && (Idestatus in r.body.fields <==> Field(body, Idestatus) != Undef)
              && (Idestatus in r.body.fields ==> r.body.fields[Idestatus] == Scalar(Num(r.table.rows[id].idestatus)))
  {
    match PlanUpdate(id, body, t)
    case Refuse(response) => response
    case Write(patch) =>
      PutFrame(t, id, ApplyCategoria(t.rows[id], patch));
      Response(200, Obj(EchoWritten(patch)), Put(t, id, ApplyCategoria(t.rows[id], patch)))
  }

  /** `deleteCategoria`. */
  function DeleteCategoria(id: int, t: Table<Categoria>): (r: Response<Categoria>)
    ensures r.status == 404 <==> id !in t.rows
    ensures r.status == 404 ==> r.table == t
    ensures id in t.rows ==> r.status == 204 && r.body == Empty && r.table.rows == t.rows - {id}
  {
    DeleteById(id, t)
  }
  /** Deleting the category a create just added restores the table's rows. */
  lemma DeleteUndoesCreateCategoria(body: Payload, t: Table<Categoria>)
    requires Valid(t) && CreateCategoria(body, t).status == 201
    ensures var t' := CreateCategoria(body, t).table;
            && DeleteCategoria(t.next, t').status == 204
            && DeleteCategoria(t.next, t').table.rows == t.rows
  {
    var t' := CreateCategoria(body, t).table;
    RemoveUndoesAdd(t, t', t'.rows[t.next]);
  }

  /** Deletion keeps names trimmed and unique up to case. */
  lemma DeleteCategoriaKeepsNames(id: int, t: Table<Categoria>)
    requires TrimmedNames(t) && UniqueNames(t)
    ensures TrimmedNames(DeleteCategoria(id, t).table) && UniqueNames(DeleteCategoria(id, t).table)
  {
  }

}

=== FILE: crypto.dfy ===
/** The password-hashing and token-signing primitives, kept abstract: the handlers
    receive the hash function as a parameter and tokens are plain claim records. */
module Crypto {

  /** A stored password digest, as the text the hashing primitive produces. */
  datatype Digest = Digest(text: string)

  /** The bcrypt primitive pair: `hash(p)` (salt and cost factor are its own business)
      and `compare(p, h)`. */
  datatype Hasher = Hasher(hash: string -> Digest, verify: (string, Digest) -> bool)

  /** The one promise of the primitive the model relies on: a password verifies
      against a digest of itself. */
  ghost predicate Sound(h: Hasher) {
    forall p :: h.verify(p, h.hash(p))
  }

  /** The claims `login` signs: `{ id, email, rol }`. */
  datatype Claims = Claims(id: int, email: string, rol: string)

  /** The `expiresIn: '8h'` horizon, in seconds. */
  const SessionSeconds: int := 8 * 60 * 60

  /** A signed session token; the signing key is configuration and stays outside the model. */
  datatype Token = Token(claims: Claims, expiresIn: int)

  /** `jwt.sign(claims, secret, { expiresIn: '8h' })`. */
  function Sign(claims: Claims): (t: Token)
    ensures t.claims == claims
    ensures t.expiresIn == 28800
  {
    Token(claims, SessionSeconds)
  }
}

=== FILE: http.dfy ===
/** What a handler hands back to Express: a status, a JSON body and the table as it
    stands afterwards, together with the ordered-validation idiom the handlers share. */
module Http {
  import opened Js
  import opened Crypto
  import opened Store

  /** Why a request was refused; the exact message text is not modelled. */
  datatype Reason =
    | Invalid(field: Key)      // a field failed its rule
    | Duplicate(field: Key)    // a uniqueness pre-check found another row
    | MissingFields               // "at least one field" on update
    | NotFound
    | NoValidData                 // nothing left to write
    | MissingCredentials
    | BadCredentials
    | Internal                    // an exception caught by the handler's `catch`

  /** A response body. */
  datatype Json =
    | Scalar(v: Value)
    | Obj(fields: map<Key, Json>)
    | Arr(items: seq<Json>)
    | Jwt(token: Token)
    | Error(reason: Reason)
    | Empty                       // `res.status(204).send()`

  datatype Response<R> = Response(status: int, body: Json, table: Table<R>)

  /** A refusal: the table is handed back untouched. */
  function Reject<R>(status: int, reason: Reason, t: Table<R>): Response<R> {
    Response(status, Error(reason), t)
  }

  /** One field rule of a handler, `if (!ok) return res.status(400)...`: the field it
      guards and whether the request passed it. */
  datatype Rule = Rule(ok: bool, field: Key)

  /** Rules run in source order and the first that fails decides: the field it names,
      or `None` when every rule passes. */
  function FirstBroken(rules: seq<Rule>): (k: Option<Key>)
    ensures k.None? <==> forall i | 0 <= i < |rules| :: rules[i].ok
    ensures k.Some? ==> exists i | 0 <= i < |rules| :: !rules[i].ok && rules[i].field == k.value && forall j | 0 <= j < i :: rules[j].ok
  {
    if rules == [] then None
    else if !rules[0].ok then Some(rules[0].field)
    else
      var k := FirstBroken(rules[1..]);
      assert forall i | 1 <= i < |rules| :: rules[i] == rules[1..][i - 1];
      k
  }

  /** The rule that decides is the one whose predecessors all pass. */
  lemma {:induction false} FirstBrokenIs(rules: seq<Rule>, i: int)
    requires 0 <= i < |rules| && !rules[i].ok
    requires forall j | 0 <= j < i :: rules[j].ok
    ensures FirstBroken(rules) == Some(rules[i].field)
  {
    if i > 0 {
      FirstBrokenIs(rules[1..], i - 1);
    }
  }

  /** `DELETE ... WHERE id = ?` followed by the `affectedRows === 0` test, which all
      three entities share. */
  function DeleteById<R>(id: int, t: Table<R>): (r: Response<R>)
    ensures r.status == 404 <==> id !in t.rows
    ensures r.status == 404 ==> r == Reject(404, NotFound, t)
    ensures r.status != 404 ==> r.status == 204 && r.body == Empty
    ensures r.status == 204 ==> r.table.rows.Keys == t.rows.Keys - {id} && |r.table.rows| == |t.rows| - 1
    ensures r.status == 204 ==> forall k | k in r.table.rows :: r.table.rows[k] == t.rows[k]
    ensures Valid(t) ==> Valid(r.table)
  {
    if id !in t.rows then Reject(404, NotFound, t)
    else Response(204, Empty, Remove(t, id))
  }
}

=== FILE: js.dfy ===
/** The fragment of JavaScript value semantics the request handlers rely on:
    the values a parsed request body can hold, truthiness, `String.prototype.trim`,
    `toLowerCase`, `Number()` and the e-mail regular expression. */
module Js {

  /** A request-body value as Express hands it to a handler. `Undef` is a key the
      body does not carry; `Other` is any object (ToString gives "[object Object]").
      Numbers are integers only: fractional numbers are outside the model. */
  datatype Value = Undef | Null | Bool(b: bool) | Num(n: int) | Str(s: string) | Other

  /** The field names the handlers read from a request body or write into a response;
      a body's other fields are never looked at. */
  datatype Key =
    | Id | Idcategoria | Idproducto | Idusuario
    | Nombre | Idestatus | Precio | Stock | Imagen | Descripcion
    | Email | Password | Rol | Activo
    | Correo | Clave | Success | UsuarioKey | TokenKey

  /** A parsed request body: field name to value. */
  type Payload = map<Key, Value>

  /** Destructuring `const { key } = req.body`. */
  function Field(body: Payload, key: Key): Value {
    if key in body then body[key] else Undef
  }

  /** Destructuring with a default: `const { key = fallback } = req.body`; the default
      applies only to a missing key, never to `null`. */
  function FieldOr(body: Payload, key: Key, fallback: Value): (v: Value)
    ensures Field(body, key) != Undef ==> v == Field(body, key)
    ensures Field(body, key) == Undef ==> v == fallback
  {
    if Field(body, key) == Undef then fallback else Field(body, key)
  }

  /** JavaScript truthiness: `!!v`. */
  predicate Truthy(v: Value) {
    match v
    case Undef => false
    case Null => false
    case Bool(b) => b
    case Num(n) => n != 0
    case Str(s) => s != ""
    case Other => true
  }

  /** The ECMAScript WhiteSpace and LineTerminator code points: what `trim` removes,
      what `Number()` skips around a numeral and what `\s` matches in a regular expression. */
  predicate IsSpace(c: char) {
    || c == '\t' || c == '\n' || c == '\U{000B}' || c == '\U{000C}' || c == '\r'
    || c == ' ' || c == '\U{00A0}' || c == '\U{1680}'
    || ('\U{2000}' <= c <= '\U{200A}')
    || c == '\U{2028}' || c == '\U{2029}' || c == '\U{202F}' || c == '\U{205F}'
    || c == '\U{3000}' || c == '\U{FEFF}'
  }

  /** Drops the longest prefix of characters satisfying `drop`. */
  function StripStart(s: string, drop: char -> bool): (r: string)
    ensures |r| <= |s| && r == s[|s| - |r|..]
    ensures r == [] || !drop(r[0])
    ensures forall i | 0 <= i < |s| - |r| :: drop(s[i])
  {
    if s != [] && drop(s[0]) then
      var r := StripStart(s[1..], drop);
      assert forall i | 1 <= i < |s| :: s[i] == s[1..][i - 1];
      r
    else s
  }

  /** Drops the longest suffix of characters satisfying `drop`. */
  function StripEnd(s: string, drop: char -> bool): (r: string)
    ensures |r| <= |s| && r == s[..|r|]
    ensures r == [] || !drop(r[|r| - 1])
    ensures forall i | |r| <= i < |s| :: drop(s[i])
  {
    if s != [] && drop(s[|s| - 1]) then
      var r := StripEnd(s[..|s| - 1], drop);
      assert forall i | 0 <= i < |s| - 1 :: s[i] == s[..|s| - 1][i];
      r
    else s
  }

  function Strip(s: string, drop: char -> bool): string {
    StripEnd(StripStart(s, drop), drop)
  }

  /** `String.prototype.trim`. */
  function Trim(s: string): string {
    Strip(s, IsSpace)
  }

  /** SQL `TRIM(x)`: MySQL removes only the space character. */
  function SqlTrim(s: string): string {
    Strip(s, c => c == ' ')
  }

  /** A string with no character of `drop` at either end. */
  predicate Stripped(s: string, drop: char -> bool) {
    s == [] || (!drop(s[0]) && !drop(s[|s| - 1]))
  }

  lemma StripIsStripped(s: string, drop: char -> bool)
    ensures Stripped(Strip(s, drop), drop)
  {
    var a := StripStart(s, drop);
    var b := StripEnd(a, drop);
    if b != [] {
      assert b[0] == a[0];
    }
  }

  lemma {:induction false} StripStartIdentity(s: string, drop: char -> bool)
    requires s == [] || !drop(s[0])
    ensures StripStart(s, drop) == s
  {
  }

  lemma {:induction false} StrippedIsFixpoint(s: string, drop: char -> bool)
    requires Stripped(s, drop)
    ensures Strip(s, drop) == s
  {
    StripStartIdentity(s, drop);
  }

  /** Stripping a string that is already trimmed by a wider character class changes nothing:
      in particular SQL `TRIM` is the identity on the result of JavaScript's `trim`. */
  lemma SqlTrimOfTrim(s: string)
    ensures SqlTrim(Trim(s)) == Trim(s)
  {
    StripIsStripped(s, IsSpace);
    StrippedIsFixpoint(Trim(s), c => c == ' ');
  }

  lemma TrimIdempotent(s: string)
    ensures Trim(Trim(s)) == Trim(s)
  {
    StripIsStripped(s, IsSpace);
    StrippedIsFixpoint(Trim(s), IsSpace);
  }

  /** `typeof v === 'string' && v.trim() !== ''`: the name rule every entity shares. */
  predicate IsNonBlankString(v: Value) {
    v.Str? && Trim(v.s) != ""
  }

  function LowerChar(c: char): char {
    if 'A' <= c <= 'Z' then (c as int + 32) as char else c
  }

  /** `toLowerCase` and SQL `LOWER`, restricted to the ASCII letters. */
  function Lower(s: string): (r: string)
    ensures |r| == |s|
    ensures forall i | 0 <= i < |s| :: r[i] == LowerChar(s[i])
  {
    seq(|s|, i requires 0 <= i < |s| => LowerChar(s[i]))
  }

  lemma LowerIdempotent(s: string)
    ensures Lower(Lower(s)) == Lower(s)
  {
  }

  /** The length JavaScript reports: UTF-16 code units, so a character outside the
      Basic Multilingual Plane counts twice. */
  function Utf16Length(s: string): (n: nat)
    ensures |s| <= n <= 2 * |s|
  {
    if s == [] then 0 else (if s[0] as int > 0xFFFF then 2 else 1) + Utf16Length(s[1..])
  }

  /** The result of `Number(v)` within the integer model. */
  datatype Number = NaN | Int(i: int)

  predicate IsDigit(c: char) {
    '0' <= c <= '9'
  }

  predicate AllDigits(s: string) {
    forall i | 0 <= i < |s| :: IsDigit(s[i])
  }

  function DigitsValue(s: string): (n: nat)
    requires AllDigits(s)
  {
    if s == [] then 0 else 10 * DigitsValue(s[..|s| - 1]) + (s[|s| - 1] as int - '0' as int)
  }

  /** A trimmed numeral: the empty string is 0, otherwise an optional sign and decimal digits. */
  function ParseNumeral(s: string): Number {
    if s == [] then Int(0)
    else if AllDigits(s) then Int(DigitsValue(s))
    else if |s| > 1 && (s[0] == '+' || s[0] == '-') && AllDigits(s[1..]) then
      var magnitude: int := DigitsValue(s[1..]);
      Int(if s[0] == '-' then -magnitude else magnitude)
    else NaN
  }

  /** `Number(v)`. */
  function ToNumber(v: Value): (r: Number)
    ensures v.Num? ==> r == Int(v.n)
    ensures v == Undef || v == Other ==> r == NaN
    ensures v == Null ==> r == Int(0)
  {
    match v
    case Undef => NaN
    case Null => Int(0)
    case Bool(b) => Int(if b then 1 else 0)
    case Num(n) => Int(n)
    case Str(s) => ParseNumeral(Trim(s))
    case Other => NaN
  }

  /** `Number.isInteger(Number(v))`, and equally `!isNaN(Number(v))` in the integer model. */
  predicate IsNumeric(v: Value) {
    ToNumber(v).Int?
  }

  /** `[a, b].includes(Number(v))`. */
  predicate NumberIn(v: Value, a: int, b: int) {
    ToNumber(v) == Int(a) || ToNumber(v) == Int(b)
  }

  /** Decimal digits of a natural number. */
  function NatToDecimal(n: nat): (r: string)
    ensures r != [] && AllDigits(r)
  {
    if n < 10 then ['0' + n as char]
    else NatToDecimal(n / 10) + ['0' + (n % 10) as char]
  }

  /** The digits `NatToDecimal` writes read back as the number they were written from. */
  lemma {:induction false} DecimalValue(n: nat)
    ensures DigitsValue(NatToDecimal(n)) == n
  {
    var s := NatToDecimal(n);
    if n >= 10 {
      DecimalValue(n / 10);
      assert s[..|s| - 1] == NatToDecimal(n / 10);
    }
  }

  /** `Number(String(n)) === n` for every integer: the text an integer prints as has no
      surrounding spaces and parses back to it. */
  lemma NumeralRoundTrip(n: int)
    ensures ToNumber(Str(ToStr(Num(n)))) == Int(n)
  {
    NumeralIsTrimmed(n);
    NumeralParses(n);
  }

  /** The text of an integer starts with a sign or a digit and ends with a digit. */
  lemma NumeralIsTrimmed(n: int)
    ensures Trim(ToStr(Num(n))) == ToStr(Num(n))
  {
    var s := ToStr(Num(n));
    assert IsDigit(s[|s| - 1]);
    assert s[0] == '-' || IsDigit(s[0]);
    StrippedIsFixpoint(s, IsSpace);
  }

  /** The text of an integer parses back to it. */
  lemma NumeralParses(n: int)
    ensures ParseNumeral(ToStr(Num(n))) == Int(n)
  {
    var s := ToStr(Num(n));
    if n < 0 {
      DecimalValue(-n);
      assert s[1..] == NatToDecimal(-n);
      assert !IsDigit(s[0]);
    } else {
      DecimalValue(n);
    }
  }

  /** `String(v)`, as `RegExp.prototype.test` converts its argument. */
  function ToStr(v: Value): string {
    match v
    case Undef => "undefined"
    case Null => "null"
    case Bool(b) => if b then "true" else "false"
    case Num(n) => if n < 0 then "-" + NatToDecimal(-n) else NatToDecimal(n)
    case Str(s) => s
    case Other => "[object Object]"
  }

  /** `/\S+@\S+\.\S+/.test(s)`: the pattern is not anchored, so it holds when some
      non-space character precedes an `@`, a non-empty run of non-space characters
      leads from it to a `.`, and a non-space character follows that `.`. */
  predicate MatchesEmailPattern(s: string) {
    exists at | 1 <= at < |s| :: EmailMatchAt(s, at)
  }

  /** The pattern matched with its `@` at index `at`. */
  predicate EmailMatchAt(s: string, at: int)
    requires 1 <= at < |s|
  {
    && s[at] == '@' && !IsSpace(s[at - 1])
    && exists dot | at + 2 <= dot < |s| - 1 :: EmailDotAt(s, at, dot)
  }

  /** The pattern matched with its `@` at `at` and its `.` at `dot`. */
  predicate EmailDotAt(s: string, at: int, dot: int)
    requires 1 <= at && at + 2 <= dot < |s| - 1
  {
    && s[dot] == '.' && !IsSpace(s[dot + 1])
    && forall k | at < k < dot :: !IsSpace(s[k])
  }

  /** A string with a non-space character does not trim to nothing. */
  lemma TrimKeeps(s: string, i: int)
    requires 0 <= i < |s| && !IsSpace(s[i])
    ensures Trim(s) != ""
  {
    var a := StripStart(s, IsSpace);
    assert i >= |s| - |a|;
    assert a[i - (|s| - |a|)] == s[i];
  }

  /** An address that passes the e-mail test is not blank. */
  lemma EmailPatternNonBlank(s: string)
    requires MatchesEmailPattern(s)
    ensures Trim(s) != ""
  {
    var at :| 1 <= at < |s| && EmailMatchAt(s, at);
    TrimKeeps(s, at - 1);
  }

  /** Only a string can pass the e-mail test: every other truthy value converts to
      text without an `@`. */
  lemma EmailPatternNeedsString(v: Value)
    requires Truthy(v) && MatchesEmailPattern(ToStr(v))
    ensures v.Str?
  {
  }
}

=== FILE: productos.dfy ===
/** The product handlers: `createProducto`, `updateProducto` and `deleteProducto`.
    The uploaded image reaches a handler only as the file name the upload layer chose. */
module Productos {
  import opened Js
  import opened Store
  import opened Http

  datatype Producto = Producto(
    nombre: string,
    idestatus: int,
    idcategoria: int,
    precio: Option<int>,        // NULL when absent
    stock: Option<int>,         // NULL when absent
    imagen: Option<string>,     // NULL when absent
    descripcion: Value)         // `descripcion || null`: a truthy value or Null

  /** `Number.isInteger(Number(v)) && Number(v) > 0`. */
  predicate PositiveInt(v: Value) {
    IsNumeric(v) && ToNumber(v).i > 0
  }

  /** `Number.isInteger(Number(v)) && Number(v) >= 0`. */
  predicate NonNegativeInt(v: Value) {
    IsNumeric(v) && ToNumber(v).i >= 0
  }

  /** `v || null`. */
  function OrNull(v: Value): (w: Value)
    ensures Truthy(v) ==> w == v
    ensures !Truthy(v) ==> w == Null
  {
    if Truthy(v) then v else Null
  }

  /** `imagen || null` for an uploaded file name. */
  function ImageColumn(name: string): (c: Option<string>)
    ensures c.Some? <==> name != ""
    ensures c.Some? ==> c.value == name
  {
    if name == "" then None else Some(name)
  }

  /** The JSON form of a nullable number column. */
  function NumberOrNull(c: Option<int>): Value {
    match c
    case None => Null
    case Some(n) => Num(n)
  }

  function ImageJson(c: Option<string>): Value {
    match c
    case None => Null
    case Some(f) => Str(f)
  }

  /** The rules of `createProducto`, in the order it applies them. */
  function CreateRules(body: Payload): seq<Rule> {
    var precio := Field(body, Precio);
    var stock := Field(body, Stock);
    [ Rule(Truthy(Field(body, Nombre)) && IsNonBlankString(Field(body, Nombre)), Nombre),
      Rule(NumberIn(FieldOr(body, Idestatus, Num(1)), 1, 2), Idestatus),
      Rule(Truthy(Field(body, Idcategoria)) && PositiveInt(Field(body, Idcategoria)), Idcategoria),
      Rule(precio == Undef || IsNumeric(precio), Precio),
      Rule(stock == Undef || NonNegativeInt(stock), Stock) ]
  }

  /** A product's JSON view, as the 201 answer of `createProducto` lists it. */
  function ProductoJson(id: int, p: Producto): map<Key, Json> {
    map[Idproducto := Scalar(Num(id)),
        Nombre := Scalar(Str(p.nombre)),
        Idestatus := Scalar(Num(p.idestatus)),
        Idcategoria := Scalar(Num(p.idcategoria)),
        Precio := Scalar(NumberOrNull(p.precio)),
        Stock := Scalar(NumberOrNull(p.stock)),
        Imagen := Scalar(ImageJson(p.imagen)),
        Descripcion := Scalar(p.descripcion)]
  }

  /** The row `createProducto` inserts once every rule has passed. */
  function NewProducto(body: Payload, file: Option<string>): (u: Producto)
    requires FirstBroken(CreateRules(body)).None?
    ensures IsNonBlankString(Field(body, Nombre)) && u.nombre == Trim(Field(body, Nombre).s)
    ensures ToNumber(FieldOr(body, Idestatus, Num(1))) == Int(u.idestatus) && 1 <= u.idestatus <= 2
    ensures ToNumber(Field(body, Idcategoria)) == Int(u.idcategoria) && u.idcategoria > 0
    ensures u.precio.None? <==> Field(body, Precio) == Undef
    ensures u.precio.Some? ==> ToNumber(Field(body, Precio)) == Int(u.precio.value)
    ensures u.stock.None? <==> Field(body, Stock) == Undef
    ensures u.stock.Some? ==> ToNumber(Field(body, Stock)) == Int(u.stock.value) && u.stock.value >= 0
    ensures u.imagen.Some? <==> file.Some? && file.value != ""
    ensures u.imagen.Some? ==> u.imagen.value == file.value
    ensures Truthy(Field(body, Descripcion)) ==> u.descripcion == Field(body, Descripcion)
    ensures !Truthy(Field(body, Descripcion)) ==> u.descripcion == Null
  {
    var rules := CreateRules(body);
    assert rules[0].ok && rules[1].ok && rules[2].ok && rules[3].ok && rules[4].ok;
    var precio := Field(body, Precio);
    var stock := Field(body, Stock);
    Producto(
      Trim(Field(body, Nombre).s),
      ToNumber(FieldOr(body, Idestatus, Num(1))).i,
      ToNumber(Field(body, Idcategoria)).i,
      if precio == Undef then None else Some(ToNumber(precio).i),
      if stock == Undef then None else Some(ToNumber(stock).i),
      if file.Some? then ImageColumn(file.value) else None,
      OrNull(Field(body, Descripcion)))
  }

  /** `createProducto`; `file` is the name of the uploaded image, if any. */
  function CreateProducto(body: Payload, file: Option<string>, t: Table<Producto>): (r: Response<Producto>)
    requires Valid(t)
    ensures Valid(r.table)
    ensures r.status == 201 || r.status == 400
    ensures r.status == 201 <==> FirstBroken(CreateRules(body)).None?
    ensures r.status == 400 ==> r.table == t && r.body == Error(Invalid(FirstBroken(CreateRules(body)).value))
    ensures r.status == 201 ==>
              && t.next in r.table.rows
              && AddsRow(t, r.table, r.table.rows[t.next])
              && r.body == Obj(ProductoJson(t.next, r.table.rows[t.next]))
              && r.table.rows[t.next] == NewProducto(body, file)
  {
    var broken := FirstBroken(CreateRules(body));
    if broken.Some? then Reject(400, Invalid(broken.value), t)
    else
      var row := NewProducto(body, file);
      InsertAddsOneRow(t, row);
      Response(201, Obj(ProductoJson(t.next, row)), Insert(t, row))
  }

  /** The rules run in order and the first that fails names the field of the 400;
      nothing is inserted. */
  lemma CreateProductoFirstFailure(body: Payload, file: Option<string>, t: Table<Producto>, i: int)
    requires Valid(t)
    requires 0 <= i < 5 && !CreateRules(body)[i].ok
    requires forall j | 0 <= j < i :: CreateRules(body)[j].ok
    ensures CreateProducto(body, file, t) == Reject(400, Invalid(CreateRules(body)[i].field), t)
  {
    FirstBrokenIs(CreateRules(body), i);
  }

  /** What a successful create stores and answers: the trimmed name, the coerced
      numbers, NULL for an absent price or stock, NULL for an empty description. */
  lemma CreateProductoStores(body: Payload, file: Option<string>, t: Table<Producto>)
    requires Valid(t)
    requires CreateProducto(body, file, t).status == 201
    ensures var row := CreateProducto(body, file, t).table.rows[t.next];
            && IsNonBlankString(Field(body, Nombre)) && row.nombre == Trim(Field(body, Nombre).s)
            && (row.idestatus == 1 || row.idestatus == 2)
            && ToNumber(FieldOr(body, Idestatus, Num(1))) == Int(row.idestatus)
            && row.idcategoria > 0
            && ToNumber(Field(body, Idcategoria)) == Int(row.idcategoria)
            && (Field(body, Precio) == Undef <==> row.precio == None)
            && (row.precio.Some? ==> Int(row.precio.value) == ToNumber(Field(body, Precio)))
            && (Field(body, Stock) == Undef <==> row.stock == None)
            && (row.stock.Some? ==> row.stock.value >= 0 && Int(row.stock.value) == ToNumber(Field(body, Stock)))
            && (!Truthy(Field(body, Descripcion)) ==> row.descripcion == Null)
            && (Truthy(Field(body, Descripcion)) ==> row.descripcion == Field(body, Descripcion))
            && (file.Some? && file.value != "" ==> row.imagen == Some(file.value))
            && (file.None? || file.value == "" ==> row.imagen == None)
  {
  }

  /** `createProducto` runs no uniqueness check: its answer does not depend on the rows
      already stored, only on the id the counter hands out. */
  lemma CreateProductoIgnoresStoredRows(body: Payload, file: Option<string>, t1: Table<Producto>, t2: Table<Producto>)
    requires Valid(t1) && Valid(t2) && t1.next == t2.next
    ensures CreateProducto(body, file, t1).status == CreateProducto(body, file, t2).status
    ensures CreateProducto(body, file, t1).body == CreateProducto(body, file, t2).body
  {
  }

  /** The columns of a product an update can write. */
  const Columns: set<Key> := {Nombre, Idestatus, Idcategoria, Precio, Stock, Imagen, Descripcion}

  /** Whether an update request supplies column `k`: the image through the upload,
      every other column as a body field that is not `undefined`. */
  predicate Given(body: Payload, file: Option<string>, k: Key) {
    if k == Imagen then file.Some? else Field(body, k) != Undef
  }

  /** The columns an update request supplies. */
  function Supplied(body: Payload, file: Option<string>): set<Key> {
    set k | k in Columns && Given(body, file, k)
  }

  /** The rules of `updateProducto`: the creation rules, each applied only to a supplied field. */
  function UpdateRules(body: Payload): seq<Rule> {
    var nombre := Field(body, Nombre);
    var idestatus := Field(body, Idestatus);
    var idcategoria := Field(body, Idcategoria);
    var precio := Field(body, Precio);
    var stock := Field(body, Stock);
    [ Rule(nombre == Undef || IsNonBlankString(nombre), Nombre),
      Rule(idestatus == Undef || NumberIn(idestatus, 1, 2), Idestatus),
      Rule(idcategoria == Undef || PositiveInt(idcategoria), Idcategoria),
      Rule(precio == Undef || IsNumeric(precio), Precio),
      Rule(stock == Undef || NonNegativeInt(stock), Stock) ]
  }

  /** Every supplied field passes its rule. */
  predicate UpdateFieldsPass(body: Payload) {
    && (Field(body, Nombre) == Undef || IsNonBlankString(Field(body, Nombre)))
    && (Field(body, Idestatus) == Undef || NumberIn(Field(body, Idestatus), 1, 2))
    && (Field(body, Idcategoria) == Undef || PositiveInt(Field(body, Idcategoria)))
    && (Field(body, Precio) == Undef || IsNumeric(Field(body, Precio)))
    && (Field(body, Stock) == Undef || NonNegativeInt(Field(body, Stock)))
  }

  /** No rule of an update breaks exactly when every supplied field passes. */
  lemma UpdateRulesPass(body: Payload)
    ensures FirstBroken(UpdateRules(body)).None? <==> UpdateFieldsPass(body)
  {
    var rules := UpdateRules(body);
    if UpdateFieldsPass(body) {
      forall i | 0 <= i < |rules| ensures rules[i].ok {
        assert i == 0 || i == 1 || i == 2 || i == 3 || i == 4;
      }
    }
    if FirstBroken(rules).None? {
      assert rules[0].ok && rules[1].ok && rules[2].ok && rules[3].ok && rules[4].ok;
    }
  }

  /** The columns an update writes. */
  datatype ProductoPatch = ProductoPatch(
    nombre: Option<string>,
    idestatus: Option<int>,
    idcategoria: Option<int>,
    precio: Option<Option<int>>,
    stock: Option<Option<int>>,
    imagen: Option<Option<string>>,
    descripcion: Option<Value>)

  /** The `SET` list of `updateProducto`, built once every rule has passed. */
  function PatchOf(body: Payload, file: Option<string>): (p: ProductoPatch)
    requires UpdateFieldsPass(body)
    ensures p.nombre.Some? <==> Given(body, file, Nombre)
    ensures p.idestatus.Some? <==> Given(body, file, Idestatus)
    ensures p.idcategoria.Some? <==> Given(body, file, Idcategoria)
    ensures p.precio.Some? <==> Given(body, file, Precio)
    ensures p.stock.Some? <==> Given(body, file, Stock)
    ensures p.imagen.Some? <==> Given(body, file, Imagen)
    ensures p.descripcion.Some? <==> Given(body, file, Descripcion)
    ensures p.nombre.Some? ==> IsNonBlankString(Field(body, Nombre)) && p.nombre.value == Trim(Field(body, Nombre).s)
    ensures p.idestatus.Some? ==> ToNumber(Field(body, Idestatus)) == Int(p.idestatus.value)
    ensures p.idcategoria.Some? ==> ToNumber(Field(body, Idcategoria)) == Int(p.idcategoria.value)
    ensures p.precio.Some? ==> p.precio.value.Some? && ToNumber(Field(body, Precio)) == Int(p.precio.value.value)
    ensures p.stock.Some? ==> p.stock.value.Some? && ToNumber(Field(body, Stock)) == Int(p.stock.value.value)
    ensures p.imagen.Some? ==> file.Some? && p.imagen.value == ImageColumn(file.value)
    ensures p.descripcion.Some? ==> p.descripcion.value == OrNull(Field(body, Descripcion))
  {
    ProductoPatch(
      NameColumn(Field(body, Nombre)),
      NumberColumn(Field(body, Idestatus)),
      NumberColumn(Field(body, Idcategoria)),
      Nullable(NumberColumn(Field(body, Precio))),
      Nullable(NumberColumn(Field(body, Stock))),
      ImagePatch(file),
      DescripcionPatch(Field(body, Descripcion)))
  }

  /** `imagen || null` for an uploaded file, nothing when there is none. */
  function ImagePatch(file: Option<string>): (c: Option<Option<string>>)
    ensures c.Some? <==> file.Some?
    ensures c.Some? ==> c.value == ImageColumn(file.value)
  {
    match file
    case None => None
    case Some(f) => Some(ImageColumn(f))
  }

  /** `descripcion || null` for a supplied description. */
  function DescripcionPatch(v: Value): (c: Option<Value>)
    ensures c.Some? <==> v != Undef
    ensures c.Some? ==> c.value == OrNull(v)
  {
    if v == Undef then None else Some(OrNull(v))
  }

  /** `nombre.trim()` for a supplied name. */
  function NameColumn(v: Value): (c: Option<string>)
    requires v == Undef || IsNonBlankString(v)
    ensures c.Some? <==> v != Undef
    ensures c.Some? ==> c.value == Trim(v.s) && c.value != ""
  {
    if v == Undef then None else Some(Trim(v.s))
  }

  /** `Number(v)` for a supplied field that passed its numeric rule. */
  function NumberColumn(v: Value): (c: Option<int>)
    requires v == Undef || IsNumeric(v)
    ensures c.Some? <==> v != Undef
    ensures c.Some? ==> ToNumber(v) == Int(c.value)
  {
    if v == Undef then None else Some(ToNumber(v).i)
  }

  /** A value written to a nullable column. */
  function Nullable(c: Option<int>): (d: Option<Option<int>>)
    ensures d.Some? <==> c.Some?
    ensures d.Some? ==> d.value == c
  {
    match c
    case None => None
    case Some(n) => Some(Some(n))
  }

  function ApplyProducto(row: Producto, p: ProductoPatch): Producto {
    Producto(
      Override(row.nombre, p.nombre),
      Override(row.idestatus, p.idestatus),
      Override(row.idcategoria, p.idcategoria),
      Override(row.precio, p.precio),
      Override(row.stock, p.stock),
      Override(row.imagen, p.imagen),
      Override(row.descripcion, p.descripcion))
  }

  const NoChange: ProductoPatch := ProductoPatch(None, None, None, None, None, None, None)

  /** Whether the patch writes the column named `k`. */
  predicate Writes(p: ProductoPatch, k: Key) {
    match k
    case Nombre => p.nombre.Some?
    case Idestatus => p.idestatus.Some?
    case Idcategoria => p.idcategoria.Some?
    case Precio => p.precio.Some?
    case Stock => p.stock.Some?
    case Imagen => p.imagen.Some?
    case Descripcion => p.descripcion.Some?
    case _ => false
  }

  /** The JSON of a written column, normalised as it was written. */
  function Written(p: ProductoPatch, k: Key): Json
    requires Writes(p, k)
  {
    match k
    case Nombre => Scalar(Str(p.nombre.value))
    case Idestatus => Scalar(Num(p.idestatus.value))
    case Idcategoria => Scalar(Num(p.idcategoria.value))
    case Precio => Scalar(NumberOrNull(p.precio.value))
    case Stock => Scalar(NumberOrNull(p.stock.value))
    case Imagen => Scalar(ImageJson(p.imagen.value))
    case Descripcion => Scalar(p.descripcion.value)
  }

  /** The body `updateProducto` answers with: each written column. */
  function Echo(p: ProductoPatch): map<Key, Json> {
    map k | k in Columns && Writes(p, k) :: Written(p, k)
  }

  /** `updateProducto`. The `affectedRows === 0` answer after the write is left out:
      the row was found just before, so the write always finds it. */
  function UpdateProducto(id: int, body: Payload, file: Option<string>, t: Table<Producto>): (r: Response<Producto>)
    ensures r.status in {200, 400, 404}
    ensures r.status == 200 <==> Supplied(body, file) != {} && id in t.rows && UpdateFieldsPass(body)
    ensures r.status != 200 ==> r.table == t
    ensures Valid(t) ==> Valid(r.table)
    ensures Supplied(body, file) == {} ==> r == Reject(400, MissingFields, t)
    ensures Supplied(body, file) != {} && id !in t.rows ==> r == Reject(404, NotFound, t)
    ensures Supplied(body, file) != {} && id in t.rows && FirstBroken(UpdateRules(body)).Some?
            ==> r == Reject(400, Invalid(FirstBroken(UpdateRules(body)).value), t)
    ensures r.status == 200 ==> id in t.rows && OnlyRowChanged(t, r.table, id)
    ensures r.status == 200 ==> r.table.rows[id] == ApplyProducto(t.rows[id], PatchOf(body, file))
    ensures r.status == 200 ==> r.body == Obj(Echo(PatchOf(body, file)))
  {
    if Supplied(body, file) == {} then Reject(400, MissingFields, t)
    else if id !in t.rows then Reject(404, NotFound, t)
    else
      var broken := FirstBroken(UpdateRules(body));
      UpdateRulesPass(body);
      if broken.Some? then Reject(400, Invalid(broken.value), t)
      else
        var patch := PatchOf(body, file);
        PatchCoversSupplied(body, file);
        if patch == NoChange then Reject(400, NoValidData, t)
        else
          var row := ApplyProducto(t.rows[id], patch);
          PutFrame(t, id, row);
          Response(200, Obj(Echo(patch)), Put(t, id, row))
  }

  /** Every supplied field lands in the `SET` list, so once the rules pass there is
      always something to write: the "no valid data" answer is unreachable. */
  lemma PatchCoversSupplied(body: Payload, file: Option<string>)
    requires UpdateFieldsPass(body)
    ensures forall k | k in Columns :: Writes(PatchOf(body, file), k) <==> k in Supplied(body, file)
    ensures Supplied(body, file) != {} ==> PatchOf(body, file) != NoChange
  {
    var p := PatchOf(body, file);
    WritesIffGiven(p, body, file);
    var s := Supplied(body, file);
    if s != {} {
      var k := Pick(s);
      assert Writes(p, k);
    }
  }

  /** A patch that writes exactly the given fields writes exactly the supplied columns. */
  lemma WritesIffGiven(p: ProductoPatch, body: Payload, file: Option<string>)
    requires p.nombre.Some? <==> Given(body, file, Nombre)
    requires p.idestatus.Some? <==> Given(body, file, Idestatus)
    requires p.idcategoria.Some? <==> Given(body, file, Idcategoria)
    requires p.precio.Some? <==> Given(body, file, Precio)
    requires p.stock.Some? <==> Given(body, file, Stock)
    requires p.imagen.Some? <==> Given(body, file, Imagen)
    requires p.descripcion.Some? <==> Given(body, file, Descripcion)
    ensures forall k | k in Columns :: Writes(p, k) <==> k in Supplied(body, file)
  {
    forall k | k in Columns ensures Writes(p, k) <==> k in Supplied(body, file) {
      WritesIffGivenAt(p, body, file, k);
    }
  }

  lemma WritesIffGivenAt(p: ProductoPatch, body: Payload, file: Option<string>, k: Key)
    requires p.nombre.Some? <==> Given(body, file, Nombre)
    requires p.idestatus.Some? <==> Given(body, file, Idestatus)
    requires p.idcategoria.Some? <==> Given(body, file, Idcategoria)
    requires p.precio.Some? <==> Given(body, file, Precio)
    requires p.stock.Some? <==> Given(body, file, Stock)
    requires p.imagen.Some? <==> Given(body, file, Imagen)
    requires p.descripcion.Some? <==> Given(body, file, Descripcion)
    requires k in Columns
    ensures Writes(p, k) <==> Given(body, file, k)
  {
    match k
    case Nombre =>
    case Idestatus =>
    case Idcategoria =>
    case Precio =>
    case Stock =>
    case Imagen =>
    case Descripcion =>
  }

  lemma NoValidDataUnreachable(id: int, body: Payload, file: Option<string>, t: Table<Producto>)
    ensures UpdateProducto(id, body, file, t).body != Error(NoValidData)
  {
    if Supplied(body, file) != {} && id in t.rows && UpdateFieldsPass(body) {
      PatchCoversSupplied(body, file);
    }
  }

  /** The answer of an update lists exactly the columns its patch writes, each with the
      value the row now holds; a column outside the answer keeps its old value. */
  lemma EchoAgreesWithApply(row: Producto, p: ProductoPatch)
    ensures var e := Echo(p);
            var n := ApplyProducto(row, p);
            && e.Keys <= Columns
            && (Nombre in e <==> p.nombre.Some?) && (Idestatus in e <==> p.idestatus.Some?)
            && (Idcategoria in e <==> p.idcategoria.Some?) && (Precio in e <==> p.precio.Some?)
            && (Stock in e <==> p.stock.Some?) && (Imagen in e <==> p.imagen.Some?)
            && (Descripcion in e <==> p.descripcion.Some?)
            && (Nombre in e ==> e[Nombre] == Scalar(Str(n.nombre)))
            && (Idestatus in e ==> e[Idestatus] == Scalar(Num(n.idestatus)))
            && (Idcategoria in e ==> e[Idcategoria] == Scalar(Num(n.idcategoria)))
            && (Precio in e ==> e[Precio] == Scalar(NumberOrNull(n.precio)))
            && (Stock in e ==> e[Stock] == Scalar(NumberOrNull(n.stock)))
            && (Imagen in e ==> e[Imagen] == Scalar(ImageJson(n.imagen)))
            && (Descripcion in e ==> e[Descripcion] == Scalar(n.descripcion))
            && (Nombre !in e ==> n.nombre == row.nombre)
            && (Idestatus !in e ==> n.idestatus == row.idestatus)
            && (Idcategoria !in e ==> n.idcategoria == row.idcategoria)
            && (Precio !in e ==> n.precio == row.precio)
            && (Stock !in e ==> n.stock == row.stock)
            && (Imagen !in e ==> n.imagen == row.imagen)
            && (Descripcion !in e ==> n.descripcion == row.descripcion)
  {
  }

  /** A successful update answers with exactly the fields the request supplied. */
  lemma UpdateProductoAnswersSupplied(id: int, body: Payload, file: Option<string>, t: Table<Producto>)
    requires UpdateProducto(id, body, file, t).status == 200
    ensures UpdateProducto(id, body, file, t).body.Obj?
    ensures UpdateProducto(id, body, file, t).body.fields.Keys == Supplied(body, file)
  {
    EchoKeysAreSupplied(body, file);
  }

  /** The answer built from a request's patch lists exactly the columns it supplies. */
  lemma EchoKeysAreSupplied(body: Payload, file: Option<string>)
    requires UpdateFieldsPass(body)
    ensures Echo(PatchOf(body, file)).Keys == Supplied(body, file)
  {
    var p := PatchOf(body, file);
    PatchCoversSupplied(body, file);
    var e := Echo(p);
    var s := Supplied(body, file);
    forall k | k in e ensures k in s {
      assert k in Columns && Writes(p, k);
    }
    forall k | k in s ensures k in e {
      assert k in Columns && Writes(p, k);
    }
  }

  /** Each answered field equals the column it wrote, and every column the answer does
      not list is left as it was. */
  lemma UpdateProductoWritesAnswered(id: int, body: Payload, file: Option<string>, t: Table<Producto>)
    requires UpdateProducto(id, body, file, t).status == 200
    ensures var r := UpdateProducto(id, body, file, t);
            var e := r.body.fields;
            var old_ := t.rows[id];
            var new_ := r.table.rows[id];
            && r.body.Obj?
            && (Nombre in e ==> e[Nombre] == Scalar(Str(new_.nombre)))
            && (Idestatus in e ==> e[Idestatus] == Scalar(Num(new_.idestatus)))
            && (Idcategoria in e ==> e[Idcategoria] == Scalar(Num(new_.idcategoria)))
            && (Precio in e ==> e[Precio] == Scalar(NumberOrNull(new_.precio)))
            && (Stock in e ==> e[Stock] == Scalar(NumberOrNull(new_.stock)))
            && (Imagen in e ==> e[Imagen] == Scalar(ImageJson(new_.imagen)))
            && (Descripcion in e ==> e[Descripcion] == Scalar(new_.descripcion))
            && (Nombre !in e ==> new_.nombre == old_.nombre)
            && (Idestatus !in e ==> new_.idestatus == old_.idestatus)
            && (Idcategoria !in e ==> new_.idcategoria == old_.idcategoria)
            && (Precio !in e ==> new_.precio == old_.precio)
            && (Stock !in e ==> new_.stock == old_.stock)
            && (Imagen !in e ==> new_.imagen == old_.imagen)
            && (Descripcion !in e ==> new_.descripcion == old_.descripcion)
  {
    EchoAgreesWithApply(t.rows[id], PatchOf(body, file));
  }

  /** What a successful update stores: each supplied column normalised as `createProducto`
      would store it, every other column as it was. */
  lemma UpdateProductoWritesSupplied(id: int, body: Payload, file: Option<string>, t: Table<Producto>)
    requires UpdateProducto(id, body, file, t).status == 200
    ensures var before := t.rows[id];
            var after := UpdateProducto(id, body, file, t).table.rows[id];
            && (Field(body, Nombre) == Undef ==> after.nombre == before.nombre)
            && (Field(body, Nombre) != Undef ==> IsNonBlankString(Field(body, Nombre)) && after.nombre == Trim(Field(body, Nombre).s))
            && (Field(body, Idestatus) == Undef ==> after.idestatus == before.idestatus)
            && (Field(body, Idestatus) != Undef ==> ToNumber(Field(body, Idestatus)) == Int(after.idestatus))
            && (Field(body, Idcategoria) == Undef ==> after.idcategoria == before.idcategoria)
            && (Field(body, Idcategoria) != Undef ==> ToNumber(Field(body, Idcategoria)) == Int(after.idcategoria))
            && (Field(body, Precio) == Undef ==> after.precio == before.precio)
            && (Field(body, Precio) != Undef ==> after.precio.Some? && ToNumber(Field(body, Precio)) == Int(after.precio.value))
            && (Field(body, Stock) == Undef ==> after.stock == before.stock)
            && (Field(body, Stock) != Undef ==> after.stock.Some? && ToNumber(Field(body, Stock)) == Int(after.stock.value))
            && (file.None? ==> after.imagen == before.imagen)
            && (file.Some? ==> after.imagen == ImageColumn(file.value))
            && (Field(body, Descripcion) == Undef ==> after.descripcion == before.descripcion)
            && (Field(body, Descripcion) != Undef ==> after.descripcion == OrNull(Field(body, Descripcion)))
  {
    var p := PatchOf(body, file);
    assert UpdateProducto(id, body, file, t).table.rows[id] == ApplyProducto(t.rows[id], p);
  }

  /** The rules apply on update as on create: once the earlier rules pass, a supplied
      stock that is not a whole number of at least zero is refused, whatever else the
      request or the row holds. */
  lemma UpdateRejectsNegativeStock(id: int, body: Payload, file: Option<string>, t: Table<Producto>)
    requires id in t.rows
    requires forall j | 0 <= j < 4 :: UpdateRules(body)[j].ok
    requires Field(body, Stock) != Undef && !NonNegativeInt(Field(body, Stock))
    ensures UpdateProducto(id, body, file, t) == Reject(400, Invalid(Stock), t)
  {
    assert Stock in Supplied(body, file);
    FirstBrokenIs(UpdateRules(body), 4);
  }

  /** `deleteProducto`. */
  function DeleteProducto(id: int, t: Table<Producto>): (r: Response<Producto>)
    ensures r.status == 404 <==> id !in t.rows
    ensures r.status == 404 ==> r.table == t
    ensures id in t.rows ==> r.status == 204 && r.body == Empty && r.table.rows == t.rows - {id}
  {
    DeleteById(id, t)
  }
  /** Deleting the product a create just added restores the table's rows. */
  lemma DeleteUndoesCreateProducto(body: Payload, file: Option<string>, t: Table<Producto>)
    requires Valid(t) && CreateProducto(body, file, t).status == 201
    ensures var t' := CreateProducto(body, file, t).table;
            && DeleteProducto(t.next, t').status == 204
            && DeleteProducto(t.next, t').table.rows == t.rows
  {
    var t' := CreateProducto(body, file, t).table;
    RemoveUndoesAdd(t, t', t'.rows[t.next]);
  }

}

=== FILE: store.dfy ===
/** A relational table as the handlers see it through parametrised SQL: rows keyed
    by their primary id, plus the AUTO_INCREMENT counter that names the next insert. */
module Store {

  /** A nullable column, or a column that a partial update may leave untouched. */
  datatype Option<T> = None | Some(value: T)

  datatype Table<R> = Table(rows: map<int, R>, next: int)

  /** The AUTO_INCREMENT counter lies above every id in use. */
  predicate Valid<R>(t: Table<R>) {
    forall id | id in t.rows :: id < t.next
  }

  /** `INSERT`: the row takes the counter's value as its id (`result.insertId`). */
  function Insert<R>(t: Table<R>, row: R): Table<R> {
    Table(t.rows[t.next := row], t.next + 1)
  }

  /** `UPDATE ... WHERE id = ?` on a row that exists. */
  function Put<R>(t: Table<R>, id: int, row: R): Table<R> {
    Table(t.rows[id := row], t.next)
  }

  /** `DELETE ... WHERE id = ?`; the counter never goes back. */
  function Remove<R>(t: Table<R>, id: int): Table<R> {
    Table(t.rows - {id}, t.next)
  }

  /** `t'` is `t` with one more row, `row`, stored under the id the counter named. */
  ghost predicate AddsRow<R>(t: Table<R>, t': Table<R>, row: R) {
    && t'.next == t.next + 1
    && t.next !in t.rows
    && t'.rows == t.rows[t.next := row]
  }

  /** `t'` is `t` except possibly for the contents of row `id`: no row appears or
      disappears and every other row is untouched. */
  ghost predicate OnlyRowChanged<R>(t: Table<R>, t': Table<R>, id: int) {
    && t'.next == t.next
    && t'.rows.Keys == t.rows.Keys
    && forall k | k in t.rows && k != id :: t'.rows[k] == t.rows[k]
  }

  lemma InsertAddsOneRow<R>(t: Table<R>, row: R)
    requires Valid(t)
    ensures AddsRow(t, Insert(t, row), row)
    ensures Valid(Insert(t, row))
    ensures |Insert(t, row).rows| == |t.rows| + 1
  {
    assert t.next !in t.rows;
    assert Insert(t, row).rows.Keys == t.rows.Keys + {t.next};
  }
  /** Deleting the row an insert added gives back the rows as they were. */
  lemma RemoveUndoesAdd<R>(t: Table<R>, t': Table<R>, row: R)
    requires AddsRow(t, t', row)
    ensures t'.rows - {t.next} == t.rows
  {
    var back := t'.rows - {t.next};
    assert back.Keys == t.rows.Keys;
    forall k | k in back ensures back[k] == t.rows[k] {
      assert k != t.next;
    }
  }


  /** The frame of a partial update: writing row `id` changes nothing else. */
  lemma PutFrame<R>(t: Table<R>, id: int, row: R)
    requires id in t.rows
    ensures OnlyRowChanged(t, Put(t, id, row), id)
    ensures Put(t, id, row).rows[id] == row
    ensures Valid(t) ==> Valid(Put(t, id, row))
  {
  }

  /** A column under a partial update: the supplied value if there is one, else the stored one. */
  function Override<T>(current: T, supplied: Option<T>): (v: T)
    ensures supplied.None? ==> v == current
    ensures supplied.Some? ==> v == supplied.value
  {
    match supplied
    case None => current
    case Some(x) => x
  }

  /** A largest element of a non-empty set. */
  lemma {:induction false} LargestOf(s: set<int>) returns (m: int)
    requires s != {}
    ensures m in s && forall x | x in s :: x <= m
    decreases |s|
  {
    var y := Pick(s);
    var rest := s - {y};
    if rest == {} {
      m := y;
      assert s == {y};
    } else {
      var m' := LargestOf(rest);
      m := if y > m' then y else m';
      forall x | x in s ensures x <= m {
        if x != y { assert x in rest; }
      }
    }
  }

  lemma HasMax(s: set<int>)
    requires s != {}
    ensures exists m | m in s :: forall x | x in s :: x <= m
  {
    var m := LargestOf(s);
  }

  /** Some element of a non-empty set. */
  lemma Pick<T>(s: set<T>) returns (y: T)
    requires s != {}
    ensures y in s
  {
    assert exists z :: z in s by {
      if forall z :: z !in s { assert false; }
    }
    y :| y in s;
  }

  function MaxOf(s: set<int>): (m: int)
    requires s != {}
    ensures m in s && forall x | x in s :: x <= m
  {
    HasMax(s);
    var m :| m in s && forall x | x in s :: x <= m;
    m
  }

  /** Strictly decreasing. */
  predicate Decreasing(xs: seq<int>) {
    forall i, j | 0 <= i < j < |xs| :: xs[i] > xs[j]
  }

  lemma ConsDecreasing(m: int, rest: seq<int>)
    requires Decreasing(rest) && forall k | 0 <= k < |rest| :: rest[k] < m
    ensures Decreasing([m] + rest)
  {
    var ids := [m] + rest;
    forall i, j | 0 <= i < j < |ids| ensures ids[i] > ids[j] {
      assert ids[j] == rest[j - 1];
      if i > 0 { assert ids[i] == rest[i - 1]; }
    }
  }

  /** The ids of `s`, largest first. */
  function Descending(s: set<int>): (ids: seq<int>)
    ensures |ids| == |s|
    ensures forall i | 0 <= i < |ids| :: ids[i] in s
    ensures forall x | x in s :: x in ids
    ensures Decreasing(ids)
    decreases |s|
  {
    if s == {} then []
    else
      var m := MaxOf(s);
      var rest := Descending(s - {m});
      var ids := [m] + rest;
      assert forall i | 0 <= i < |ids| :: ids[i] in s by {
        forall i | 0 <= i < |ids| ensures ids[i] in s {
          if i > 0 { assert ids[i] == rest[i - 1]; }
        }
      }
      assert forall x | x in s :: x in ids by {
        forall x | x in s ensures x in ids {
          if x != m { assert x in s - {m}; }
        }
      }
      assert forall k | 0 <= k < |rest| :: rest[k] < m by {
        forall k | 0 <= k < |rest| ensures rest[k] < m {
          var y := rest[k];
          assert y in s - {m};
          assert y in s && y != m;
          assert y <= m;
        }
      }
      ConsDecreasing(m, rest);
      ids
  }

  /** The smallest id of `s`, which the login model takes as the first row its query lists. */
  function MinOf(s: set<int>): (m: int)
    requires s != {}
    ensures m in s && forall x | x in s :: m <= x
  {
    var ids := Descending(s);
    var m := ids[|ids| - 1];
    assert forall x | x in s :: m <= x by {
      forall x | x in s ensures m <= x {
        var i :| 0 <= i < |ids| && ids[i] == x;
        assert i == |ids| - 1 || ids[i] > m;
      }
    }
    m
  }
}

=== FILE: usuarios.dfy ===
/** The user handlers: `createUsuario`, `updateUsuario`, `deleteUsuario` and the
    password-free listings of `getAllUsuarios` and `getUsuarioById`. Passwords are
    stored only as the digest the hashing primitive returns. */
module Usuarios {
  import opened Js
  import opened Store
  import opened Crypto
  import opened Http

  datatype Usuario = Usuario(nombre: string, email: string, password: Digest, rol: string, activo: int)

  /** The roles `createUsuario` accepts. */
  const CreateRoles: set<string> := {"operador", "admin", "vendedor", "cliente"}

  /** The roles `updateUsuario` accepts: a narrower list than creation's. */
  const UpdateRoles: set<string> := {"cliente", "admin"}

  /** The default `rol` of `createUsuario` as written: capitalised, so outside `CreateRoles`. */
  const WrittenDefaultRol: string := "Operador"

  /** `password.length < 6`: only a string has a length to compare; on anything else the
      comparison is `undefined < 6`, which is false. */
  predicate ShortPassword(v: Value) {
    v.Str? && Utf16Length(v.s) < 6
  }

  /** `SELECT idusuario FROM usuarios WHERE email = ?`, ignoring the rows in `excluded`. */
  predicate EmailTaken(t: Table<Usuario>, email: string, excluded: set<int>) {
    exists id | id in t.rows && id !in excluded :: t.rows[id].email == email
  }

  /** No two users share an e-mail address. */
  ghost predicate UniqueEmails(t: Table<Usuario>) {
    forall i, j | i in t.rows && j in t.rows && i != j :: t.rows[i].email != t.rows[j].email
  }

  /** The public columns of a user: `idusuario, nombre, email, rol, activo`. The
      creation timestamp is not modelled. */
  function UsuarioView(id: int, u: Usuario): (v: map<Key, Json>)
    ensures v.Keys == {Idusuario, Nombre, Email, Rol, Activo}
    ensures v[Idusuario] == Scalar(Num(id)) && v[Email] == Scalar(Str(u.email))
  {
    map[Idusuario := Scalar(Num(id)),
        Nombre := Scalar(Str(u.nombre)),
        Email := Scalar(Str(u.email)),
        Rol := Scalar(Str(u.rol)),
        Activo := Scalar(Num(u.activo))]
  }

  /** A response body that carries no `password` field at any depth. */
  predicate HidesPassword(j: Json) {
    match j
    case Obj(fields) => Password !in fields && forall k | k in fields :: HidesPassword(fields[k])
    case Arr(items) => forall i | 0 <= i < |items| :: HidesPassword(items[i])
    case _ => true
  }

  /** The public view is the same whatever digest the row holds: it reveals nothing
      about the stored password. */
  lemma ViewIgnoresPassword(id: int, u: Usuario, d: Digest)
    ensures UsuarioView(id, u) == UsuarioView(id, u.(password := d))
    ensures HidesPassword(Obj(UsuarioView(id, u)))
  {
  }

  // ---------------------------------------------------------------- create

  /** The rules of `createUsuario`, in the order it applies them; `defaultRol` is the
      value `rol` takes when the body omits it. */
  function CreateRules(body: Payload, defaultRol: string): seq<Rule> {
    var nombre := Field(body, Nombre);
    var email := Field(body, Email);
    var password := Field(body, Password);
    var rol := FieldOr(body, Rol, Str(defaultRol));
    var activo := FieldOr(body, Activo, Num(1));
    [ Rule(Truthy(nombre) && IsNonBlankString(nombre), Nombre),
      Rule(Truthy(email) && MatchesEmailPattern(ToStr(email)), Email),
      Rule(Truthy(password) && !ShortPassword(password), Password),
      Rule(rol.Str? && rol.s in CreateRoles, Rol),
      // `typeof activo === 'number' && [0, 1].includes(activo)`: no coercion
      Rule(activo == Num(0) || activo == Num(1), Activo) ]
  }

  /** The row `createUsuario` inserts once every rule has passed: the trimmed name, the
      trimmed lower-cased address, the digest of the password, and the role and
      activity flag as given. */
  function NewUsuario(defaultRol: string, h: Hasher, body: Payload): (u: Usuario)
    requires FirstBroken(CreateRules(body, defaultRol)).None?
    requires Field(body, Password).Str?
    ensures Field(body, Nombre).Str? && u.nombre == Trim(Field(body, Nombre).s) && u.nombre != ""
    ensures Field(body, Email).Str? && u.email == Lower(Trim(Field(body, Email).s)) && u.email != ""
    ensures u.password == h.hash(Field(body, Password).s)
    ensures FieldOr(body, Rol, Str(defaultRol)) == Str(u.rol) && u.rol in CreateRoles
    ensures FieldOr(body, Activo, Num(1)) == Num(u.activo) && (u.activo == 0 || u.activo == 1)
  {
    var rules := CreateRules(body, defaultRol);
    assert rules[0].ok && rules[1].ok && rules[2].ok && rules[3].ok && rules[4].ok;
    EmailPatternNeedsString(Field(body, Email));
    EmailPatternNonBlank(Field(body, Email).s);
    Usuario(Trim(Field(body, Nombre).s), Lower(Trim(Field(body, Email).s)), h.hash(Field(body, Password).s),
            FieldOr(body, Rol, Str(defaultRol)).s, FieldOr(body, Activo, Num(1)).n)
  }

  /** `createUsuario` with `rol` defaulting to `defaultRol`; `h` is the hashing primitive. */
  function CreateUsuarioWith(defaultRol: string, h: Hasher, body: Payload, t: Table<Usuario>): (r: Response<Usuario>)
    requires Valid(t)
    ensures Valid(r.table)
    ensures r.status in {201, 400, 500}
    ensures r.status != 201 ==> r.table == t
    ensures FirstBroken(CreateRules(body, defaultRol)).Some?
            ==> r == Reject(400, Invalid(FirstBroken(CreateRules(body, defaultRol)).value), t)
    ensures FirstBroken(CreateRules(body, defaultRol)).None? ==> Field(body, Email).Str?
    ensures FirstBroken(CreateRules(body, defaultRol)).None? && Field(body, Email).Str?
            && EmailTaken(t, Lower(Trim(Field(body, Email).s)), {})
            ==> r == Reject(400, Duplicate(Email), t)
    ensures FirstBroken(CreateRules(body, defaultRol)).None? && Field(body, Email).Str?
            && !EmailTaken(t, Lower(Trim(Field(body, Email).s)), {}) && !Field(body, Password).Str?
            ==> r == Reject(500, Internal, t)
    ensures r.status == 201 <==>
              && FirstBroken(CreateRules(body, defaultRol)).None? && Field(body, Email).Str?
              && !EmailTaken(t, Lower(Trim(Field(body, Email).s)), {}) && Field(body, Password).Str?
    ensures r.status == 201 ==>
              && FirstBroken(CreateRules(body, defaultRol)).None? && Field(body, Password).Str?
              && t.next in r.table.rows
              && AddsRow(t, r.table, NewUsuario(defaultRol, h, body))
              && r.body == Obj(UsuarioView(t.next, NewUsuario(defaultRol, h, body)))
  {
    var broken := FirstBroken(CreateRules(body, defaultRol));
    if broken.Some? then Reject(400, Invalid(broken.value), t)
    else
      var email := Field(body, Email);
      var password := Field(body, Password);
      var rules := CreateRules(body, defaultRol);
      assert rules[1].ok;
      EmailPatternNeedsString(email);
      var clean := Lower(Trim(email.s));
      if EmailTaken(t, clean, {}) then Reject(400, Duplicate(Email), t)
      // `bcrypt.hash` throws on anything but a string
      else if !password.Str? then Reject(500, Internal, t)
      else
        var row := NewUsuario(defaultRol, h, body);
        InsertAddsOneRow(t, row);
        Response(201, Obj(UsuarioView(t.next, row)), Insert(t, row))
  }

  /** `createUsuario` as written: `rol` defaults to "Operador", which the role rule
      refuses, so a body without `rol` is always refused. */
  function CreateUsuario(h: Hasher, body: Payload, t: Table<Usuario>): (r: Response<Usuario>)
    requires Valid(t)
    ensures r.status == 201 ==> Field(body, Rol) != Undef
    ensures Field(body, Rol) == Undef ==> r.status == 400 && r.table == t
  {
    var rules := CreateRules(body, WrittenDefaultRol);
    assert Field(body, Rol) == Undef ==> !rules[3].ok;
    CreateUsuarioWith(WrittenDefaultRol, h, body, t)
  }

  /** Omitting `rol` fails on the role rule itself once the name, e-mail and password
      rules pass. */
  lemma CreateWithoutRolRefused(h: Hasher, body: Payload, t: Table<Usuario>)
    requires Valid(t) && Field(body, Rol) == Undef
    requires forall i | 0 <= i < 3 :: CreateRules(body, WrittenDefaultRol)[i].ok
    ensures CreateUsuario(h, body, t) == Reject(400, Invalid(Rol), t)
  {
    FirstBrokenIs(CreateRules(body, WrittenDefaultRol), 3);
  }

  /** `createUsuario` with the default evidently meant: the lower-case "operador". */
  function CreateUsuarioDefaultingRol(h: Hasher, body: Payload, t: Table<Usuario>): (r: Response<Usuario>)
    requires Valid(t)
    ensures r.status == 201 ==>
              && t.next in r.table.rows
              && r.table.rows[t.next].rol in CreateRoles
              && (Field(body, Rol) == Undef ==> r.table.rows[t.next].rol == "operador")
  {
    var r := CreateUsuarioWith("operador", h, body, t);
    if r.status == 201 then
      var u := NewUsuario("operador", h, body);
      assert r.table.rows[t.next] == u;
      r
    else r
  }

  /** With the corrected default, omitting `rol` never breaks a rule: the body passes
      exactly when its other fields do. */
  lemma CorrectedDefaultPassesRolRule(body: Payload)
    requires Field(body, Rol) == Undef
    requires forall i | 0 <= i < 5 && i != 3 :: CreateRules(body, "operador")[i].ok
    ensures FirstBroken(CreateRules(body, "operador")).None?
  {
    var rules := CreateRules(body, "operador");
    assert rules[3].ok;
  }

  /** ... and such a body, with a string password and a free address, creates an "operador". */
  lemma CreateWithoutRolDefaults(h: Hasher, body: Payload, t: Table<Usuario>)
    requires Valid(t) && Field(body, Rol) == Undef
    requires FirstBroken(CreateRules(body, "operador")).None?
    requires Field(body, Email).Str? && Field(body, Password).Str?
    requires !EmailTaken(t, Lower(Trim(Field(body, Email).s)), {})
    ensures CreateUsuarioDefaultingRol(h, body, t).status == 201
    ensures CreateUsuarioDefaultingRol(h, body, t).table.rows[t.next].rol == "operador"
  {
    var u := NewUsuario("operador", h, body);
  }

  /** Creation rejects an address some user already holds, after normalising it, and
      leaves the table as it was. */
  lemma CreateUsuarioDuplicate(defaultRol: string, h: Hasher, body: Payload, t: Table<Usuario>, other: int)
    requires Valid(t)
    requires FirstBroken(CreateRules(body, defaultRol)).None?
    requires other in t.rows && Field(body, Email).Str?
    requires t.rows[other].email == Lower(Trim(Field(body, Email).s))
    ensures CreateUsuarioWith(defaultRol, h, body, t) == Reject(400, Duplicate(Email), t)
  {
  }

  /** A password shorter than six UTF-16 code units, the empty one included, is refused
      once the name and address pass, naming the password. */
  lemma CreateRefusesShortPassword(defaultRol: string, h: Hasher, body: Payload, t: Table<Usuario>)
    requires Valid(t) && Field(body, Password).Str? && Utf16Length(Field(body, Password).s) < 6
    requires CreateRules(body, defaultRol)[0].ok && CreateRules(body, defaultRol)[1].ok
    ensures CreateUsuarioWith(defaultRol, h, body, t) == Reject(400, Invalid(Password), t)
  {
    var rules := CreateRules(body, defaultRol);
    assert !rules[2].ok;
    forall j | 0 <= j < 2 ensures rules[j].ok {
      assert j == 0 || j == 1;
    }
    FirstBrokenIs(rules, 2);
  }

  /** Creation keeps e-mail addresses unique. */
  lemma CreateUsuarioKeepsEmailsUnique(defaultRol: string, h: Hasher, body: Payload, t: Table<Usuario>)
    requires Valid(t) && UniqueEmails(t)
    ensures UniqueEmails(CreateUsuarioWith(defaultRol, h, body, t).table)
  {
  }

  /** The stored digest never reaches the answer: a create run with another hashing
      primitive answers with the same status and body. */
  lemma CreateUsuarioIgnoresDigest(defaultRol: string, h1: Hasher, h2: Hasher, body: Payload, t: Table<Usuario>)
    requires Valid(t)
    ensures CreateUsuarioWith(defaultRol, h1, body, t).status == CreateUsuarioWith(defaultRol, h2, body, t).status
    ensures CreateUsuarioWith(defaultRol, h1, body, t).body == CreateUsuarioWith(defaultRol, h2, body, t).body
  {
    if CreateUsuarioWith(defaultRol, h1, body, t).status == 201 {
      var u1 := NewUsuario(defaultRol, h1, body);
      var u2 := NewUsuario(defaultRol, h2, body);
      assert u2 == u1.(password := u2.password);
      ViewIgnoresPassword(t.next, u1, u2.password);
    }
  }

  /** No answer of a create has a password field. */
  lemma CreateUsuarioHidesPassword(defaultRol: string, h: Hasher, body: Payload, t: Table<Usuario>)
    requires Valid(t)
    ensures HidesPassword(CreateUsuarioWith(defaultRol, h, body, t).body)
  {
    var r := CreateUsuarioWith(defaultRol, h, body, t);
    if r.status == 201 {
      ViewIgnoresPassword(t.next, NewUsuario(defaultRol, h, body), Digest(""));
    } else {
      assert r.body.Error?;
    }
  }

  // ---------------------------------------------------------------- update

  /** The outcome of one field of `updateUsuario`: refused, or the column to write (if any). */
  datatype Step<T> = Fail(status: int, reason: Reason) | Keep(value: Option<T>)

  /** `nombre`: when present it must be a non-blank string, and is written trimmed. */
  function NombreStep(v: Value): (s: Step<string>)
    ensures v == Undef <==> s == Keep(None)
    ensures s.Fail? <==> v != Undef && !IsNonBlankString(v)
    ensures s.Fail? ==> s == Fail(400, Invalid(Nombre))
    ensures s.Keep? && s.value.Some? ==> s.value.value == Trim(v.s)
  {
    if v == Undef then Keep(None)
    else if !IsNonBlankString(v) then Fail(400, Invalid(Nombre))
    else Keep(Some(Trim(v.s)))
  }

  /** `email`: normalised first (`trim` throws on a non-string), then matched against
      the pattern, then checked against every other user's address. */
  function EmailStep(v: Value, id: int, t: Table<Usuario>): (s: Step<string>)
    ensures v == Undef <==> s == Keep(None)
    ensures v != Undef && !v.Str? ==> s == Fail(500, Internal)
    ensures s.Keep? && s.value.Some? ==>
              && v.Str? && s.value.value == Lower(Trim(v.s))
              && MatchesEmailPattern(s.value.value) && !EmailTaken(t, s.value.value, {id})
    ensures v.Str? && MatchesEmailPattern(Lower(Trim(v.s))) && EmailTaken(t, Lower(Trim(v.s)), {id})
            ==> s == Fail(400, Duplicate(Email))
    ensures v.Str? && !MatchesEmailPattern(Lower(Trim(v.s))) ==> s == Fail(400, Invalid(Email))
  {
    if v == Undef then Keep(None)
    else if !v.Str? then Fail(500, Internal)
    else
      var clean := Lower(Trim(v.s));
      if !MatchesEmailPattern(clean) then Fail(400, Invalid(Email))
      else if EmailTaken(t, clean, {id}) then Fail(400, Duplicate(Email))
      else Keep(Some(clean))
  }

  /** `password`: a string of at least six UTF-16 units, written as its digest; `null`
      throws on `.length` and any other non-string throws in `bcrypt.hash`. */
  function PasswordStep(h: Hasher, v: Value): (s: Step<Digest>)
    ensures v == Undef <==> s == Keep(None)
    ensures v != Undef && !v.Str? ==> s == Fail(500, Internal)
    ensures ShortPassword(v) <==> s == Fail(400, Invalid(Password))
    ensures s.Keep? && s.value.Some? ==> v.Str? && s.value.value == h.hash(v.s)
  {
    if v == Undef then Keep(None)
    else if !v.Str? then Fail(500, Internal)
    else if ShortPassword(v) then Fail(400, Invalid(Password))
    else Keep(Some(h.hash(v.s)))
  }

  /** `rol`: only "cliente" or "admin". */
  function RolStep(v: Value): (s: Step<string>)
    ensures v == Undef <==> s == Keep(None)
    ensures s.Fail? <==> v != Undef && !(v.Str? && v.s in UpdateRoles)
    ensures s.Fail? ==> s == Fail(400, Invalid(Rol))
    ensures s.Keep? && s.value.Some? ==> v == Str(s.value.value) && s.value.value in UpdateRoles
  {
    if v == Undef then Keep(None)
    else if !(v.Str? && v.s in UpdateRoles) then Fail(400, Invalid(Rol))
    else Keep(Some(v.s))
  }

  /** `activo`: anything whose `Number()` is 0 or 1, written coerced. */
  function ActivoStep(v: Value): (s: Step<int>)
    ensures v == Undef <==> s == Keep(None)
    ensures s.Fail? <==> v != Undef && !NumberIn(v, 0, 1)
    ensures s.Fail? ==> s == Fail(400, Invalid(Activo))
    ensures s.Keep? && s.value.Some? ==> ToNumber(v) == Int(s.value.value) && 0 <= s.value.value <= 1
  {
    if v == Undef then Keep(None)
    else if !NumberIn(v, 0, 1) then Fail(400, Invalid(Activo))
    else Keep(Some(ToNumber(v).i))
  }

  /** The columns an update writes. */
  datatype UsuarioPatch = UsuarioPatch(
    nombre: Option<string>,
    email: Option<string>,
    password: Option<Digest>,
    rol: Option<string>,
    activo: Option<int>)

  const NoChange: UsuarioPatch := UsuarioPatch(None, None, None, None, None)

  function ApplyUsuario(row: Usuario, p: UsuarioPatch): Usuario {
    Usuario(
      Override(row.nombre, p.nombre),
      Override(row.email, p.email),
      Override(row.password, p.password),
      Override(row.rol, p.rol),
      Override(row.activo, p.activo))
  }

  /** The "at least one field" test: a falsy name or address counts as absent, the other
      fields only when `undefined`. */
  predicate AnyField(body: Payload) {
    || Truthy(Field(body, Nombre)) || Truthy(Field(body, Email))
    || Field(body, Password) != Undef || Field(body, Rol) != Undef || Field(body, Activo) != Undef
  }

  /** Where the checks of `updateUsuario` leave the request. */
  datatype Plan = Refuse(response: Response<Usuario>) | Write(patch: UsuarioPatch)

  /** When `updateUsuario` writes: the presence test passes, the row exists and every
      field passes its step. */
  predicate UpdateAccepted(h: Hasher, id: int, body: Payload, t: Table<Usuario>) {
    && AnyField(body) && id in t.rows
    && NombreStep(Field(body, Nombre)).Keep?
    && EmailStep(Field(body, Email), id, t).Keep?
    && PasswordStep(h, Field(body, Password)).Keep?
    && RolStep(Field(body, Rol)).Keep?
    && ActivoStep(Field(body, Activo)).Keep?
  }

  /** `updateUsuario` up to the `UPDATE`: presence, existence, then the fields in order. */
  function PlanUpdate(h: Hasher, id: int, body: Payload, t: Table<Usuario>): (p: Plan)
    ensures p.Write? <==> UpdateAccepted(h, id, body, t)
    ensures p.Refuse? ==> p.response.table == t && p.response.status in {400, 404, 500} && p.response.body.Error?
    // the refusals, in the order the handler tries them: the first failing field decides
    ensures !AnyField(body) ==> p == Refuse(Reject(400, MissingFields, t))
    ensures AnyField(body) && id !in t.rows ==> p == Refuse(Reject(404, NotFound, t))
    ensures AnyField(body) && id in t.rows && NombreStep(Field(body, Nombre)).Fail?
            ==> p == Refuse(Reject(400, Invalid(Nombre), t))
    ensures && AnyField(body) && id in t.rows && NombreStep(Field(body, Nombre)).Keep?
            && EmailStep(Field(body, Email), id, t).Fail?
            ==> p == Refuse(Reject(EmailStep(Field(body, Email), id, t).status, EmailStep(Field(body, Email), id, t).reason, t))
    ensures && AnyField(body) && id in t.rows && NombreStep(Field(body, Nombre)).Keep?
            && EmailStep(Field(body, Email), id, t).Keep? && PasswordStep(h, Field(body, Password)).Fail?
            ==> p == Refuse(Reject(PasswordStep(h, Field(body, Password)).status, PasswordStep(h, Field(body, Password)).reason, t))
    ensures && AnyField(body) && id in t.rows && NombreStep(Field(body, Nombre)).Keep?
            && EmailStep(Field(body, Email), id, t).Keep? && PasswordStep(h, Field(body, Password)).Keep?
            && RolStep(Field(body, Rol)).Fail?
            ==> p == Refuse(Reject(400, Invalid(Rol), t))
    ensures && AnyField(body) && id in t.rows && NombreStep(Field(body, Nombre)).Keep?
            && EmailStep(Field(body, Email), id, t).Keep? && PasswordStep(h, Field(body, Password)).Keep?
            && RolStep(Field(body, Rol)).Keep? && ActivoStep(Field(body, Activo)).Fail?
            ==> p == Refuse(Reject(400, Invalid(Activo), t))
    ensures p.Write? ==>
              && AnyField(body) && id in t.rows
              && NombreStep(Field(body, Nombre)) == Keep(p.patch.nombre)
              && EmailStep(Field(body, Email), id, t) == Keep(p.patch.email)
              && PasswordStep(h, Field(body, Password)) == Keep(p.patch.password)
              && RolStep(Field(body, Rol)) == Keep(p.patch.rol)
              && ActivoStep(Field(body, Activo)) == Keep(p.patch.activo)
  {
    if !AnyField(body) then Refuse(Reject(400, MissingFields, t))
    else if id !in t.rows then Refuse(Reject(404, NotFound, t))
    else
      var nombre := NombreStep(Field(body, Nombre));
      if nombre.Fail? then Refuse(Reject(nombre.status, nombre.reason, t)) else
      var email := EmailStep(Field(body, Email), id, t);
      if email.Fail? then Refuse(Reject(email.status, email.reason, t)) else
      var password := PasswordStep(h, Field(body, Password));
      if password.Fail? then Refuse(Reject(password.status, password.reason, t)) else
      var rol := RolStep(Field(body, Rol));
      if rol.Fail? then Refuse(Reject(rol.status, rol.reason, t)) else
      var activo := ActivoStep(Field(body, Activo));
      if activo.Fail? then Refuse(Reject(activo.status, activo.reason, t)) else
      var patch := UsuarioPatch(nombre.value, email.value, password.value, rol.value, activo.value);
      // a truthy name or address is always written, so the presence test rules this out
      assert Truthy(Field(body, Nombre)) ==> nombre.value.Some?;
      assert Truthy(Field(body, Email)) ==> email.value.Some?;
      if patch == NoChange then Refuse(Reject(400, NoValidData, t))
      else Write(patch)
  }

  /** `updateUsuario`: writes the patch, then answers with the whole row read back,
      password excluded. */
  function UpdateUsuario(h: Hasher, id: int, body: Payload, t: Table<Usuario>): (r: Response<Usuario>)
    ensures r.status == 200 <==> UpdateAccepted(h, id, body, t)
    ensures r.status in {200, 400, 404, 500}
    ensures r.status != 200 ==> r.table == t
    ensures Valid(t) ==> Valid(r.table)
    ensures !AnyField(body) ==> r == Reject(400, MissingFields, t)
    ensures AnyField(body) && id !in t.rows ==> r == Reject(404, NotFound, t)
    ensures r.status == 200 ==>
              && id in t.rows
              && OnlyRowChanged(t, r.table, id)
              && r.body == Obj(UsuarioView(id, r.table.rows[id]))
  {
    match PlanUpdate(h, id, body, t)
    case Refuse(response) => response
    case Write(patch) =>
      var row := ApplyUsuario(t.rows[id], patch);
      PutFrame(t, id, row);
      Response(200, Obj(UsuarioView(id, row)), Put(t, id, row))
  }

  /** A successful update writes exactly the supplied columns, each normalised as its
      rule says, and keeps every other column. */
  lemma UpdateUsuarioWritesSupplied(h: Hasher, id: int, body: Payload, t: Table<Usuario>)
    requires UpdateUsuario(h, id, body, t).status == 200
    ensures var before := t.rows[id];
            var after := UpdateUsuario(h, id, body, t).table.rows[id];
            && (Field(body, Nombre) == Undef ==> after.nombre == before.nombre)
            && (Field(body, Nombre) != Undef ==> after.nombre == Trim(Field(body, Nombre).s))
            && (Field(body, Email) == Undef ==> after.email == before.email)
            && (Field(body, Email) != Undef ==> after.email == Lower(Trim(Field(body, Email).s)))
            && (Field(body, Password) == Undef ==> after.password == before.password)
            && (Field(body, Password) != Undef ==> after.password == h.hash(Field(body, Password).s))
            && (Field(body, Rol) == Undef ==> after.rol == before.rol)
            && (Field(body, Rol) != Undef ==> Field(body, Rol) == Str(after.rol) && after.rol in UpdateRoles)
            && (Field(body, Activo) == Undef ==> after.activo == before.activo)
            && (Field(body, Activo) != Undef ==> ToNumber(Field(body, Activo)) == Int(after.activo))
  {
    var p := PlanUpdate(h, id, body, t);
    assert p.Write?;
  }

  /** Once the presence test and every field rule pass there is always a column to
      write: the "no valid data" answer is unreachable. */
  lemma NoValidDataUnreachable(h: Hasher, id: int, body: Payload, t: Table<Usuario>)
    ensures UpdateUsuario(h, id, body, t).body != Error(NoValidData)
  {
    var p := PlanUpdate(h, id, body, t);
    if AnyField(body) && id in t.rows {
      var nombre := NombreStep(Field(body, Nombre));
      var email := EmailStep(Field(body, Email), id, t);
      var password := PasswordStep(h, Field(body, Password));
      var rol := RolStep(Field(body, Rol));
      var activo := ActivoStep(Field(body, Activo));
      if nombre.Keep? && email.Keep? && password.Keep? && rol.Keep? && activo.Keep? {
        assert Truthy(Field(body, Nombre)) ==> nombre.value.Some?;
        assert Truthy(Field(body, Email)) ==> email.value.Some?;
        assert UsuarioPatch(nombre.value, email.value, password.value, rol.value, activo.value) != NoChange;
      }
    }
  }

  /** A falsy name or address does not count as a field: `{ nombre: "" }` alone is
      refused for want of fields, before the id is even looked up. */
  lemma EmptyNameIsNoField(h: Hasher, id: int, t: Table<Usuario>)
    ensures UpdateUsuario(h, id, map[Nombre := Str("")], t) == Reject(400, MissingFields, t)
    ensures UpdateUsuario(h, id, map[Email := Str(""), Nombre := Null], t) == Reject(400, MissingFields, t)
  {
    var b1 := map[Nombre := Str("")];
    assert Field(b1, Nombre) == Str("") && Field(b1, Email) == Undef;
    assert Field(b1, Password) == Undef && Field(b1, Rol) == Undef && Field(b1, Activo) == Undef;
    assert !AnyField(b1);
    var b2 := map[Email := Str(""), Nombre := Null];
    assert Field(b2, Nombre) == Null && Field(b2, Email) == Str("");
    assert Field(b2, Password) == Undef && Field(b2, Rol) == Undef && Field(b2, Activo) == Undef;
    assert !AnyField(b2);
  }

  /** The update role list is narrower than creation's: "vendedor" is refused. */
  lemma UpdateRefusesVendedor(h: Hasher, id: int, t: Table<Usuario>)
    requires id in t.rows
    ensures UpdateUsuario(h, id, map[Rol := Str("vendedor")], t) == Reject(400, Invalid(Rol), t)
  {
    assert "vendedor" !in UpdateRoles;
  }

  /** Setting a user's address to the one it already has, in any case or spacing, is
      never a conflict when addresses are unique. */
  lemma UpdateToOwnEmail(h: Hasher, id: int, s: string, t: Table<Usuario>)
    requires UniqueEmails(t)
    requires id in t.rows && Lower(Trim(s)) == t.rows[id].email && MatchesEmailPattern(t.rows[id].email)
    ensures var r := UpdateUsuario(h, id, map[Email := Str(s)], t);
            r.status == 200 && r.table.rows[id] == t.rows[id]
  {
    var e := t.rows[id].email;
    var body := map[Email := Str(s)];
    OwnEmailKept(id, s, t);
    EmailOnlyPlan(h, id, s, e, t);
    UpdateUsuarioWrites(h, id, body, t);
    var patch := UsuarioPatch(None, Some(e), None, None, None);
    assert ApplyUsuario(t.rows[id], patch) == t.rows[id];
  }

  /** With unique addresses, a user's own address, in any case or spacing, passes the
      e-mail step of that user's update. */
  lemma OwnEmailKept(id: int, s: string, t: Table<Usuario>)
    requires UniqueEmails(t)
    requires id in t.rows && Lower(Trim(s)) == t.rows[id].email && MatchesEmailPattern(t.rows[id].email)
    ensures EmailStep(Str(s), id, t) == Keep(Some(t.rows[id].email))
  {
    assert !EmailTaken(t, t.rows[id].email, {id});
  }

  /** A request carrying only an address that passes its step writes just that address. */
  lemma EmailOnlyPlan(h: Hasher, id: int, s: string, e: string, t: Table<Usuario>)
    requires id in t.rows && s != ""
    requires EmailStep(Str(s), id, t) == Keep(Some(e))
    ensures PlanUpdate(h, id, map[Email := Str(s)], t) == Write(UsuarioPatch(None, Some(e), None, None, None))
  {
    EmailOnlyFields(s);
    AcceptedPlanKeepsSteps(h, id, map[Email := Str(s)], t);
  }

  /** The fields of a request carrying only a non-empty address. */
  lemma EmailOnlyFields(s: string)
    requires s != ""
    ensures var body := map[Email := Str(s)];
            && Field(body, Email) == Str(s) && AnyField(body)
            && Field(body, Nombre) == Undef && Field(body, Password) == Undef
            && Field(body, Rol) == Undef && Field(body, Activo) == Undef
  {
    var body := map[Email := Str(s)];
    assert Field(body, Email) == Str(s);
  }

  /** An accepted update writes what each step keeps. */
  lemma AcceptedPlanKeepsSteps(h: Hasher, id: int, body: Payload, t: Table<Usuario>)
    requires UpdateAccepted(h, id, body, t)
    ensures PlanUpdate(h, id, body, t)
            == Write(UsuarioPatch(NombreStep(Field(body, Nombre)).value,
                                  EmailStep(Field(body, Email), id, t).value,
                                  PasswordStep(h, Field(body, Password)).value,
                                  RolStep(Field(body, Rol)).value,
                                  ActivoStep(Field(body, Activo)).value))
  {
  }

  /** Updates keep e-mail addresses unique: the duplicate check skips only the row itself. */
  lemma UpdateUsuarioKeepsEmailsUnique(h: Hasher, id: int, body: Payload, t: Table<Usuario>)
    requires UniqueEmails(t)
    ensures UniqueEmails(UpdateUsuario(h, id, body, t).table)
  {
    var p := PlanUpdate(h, id, body, t);
    if p.Write? {
      UpdateUsuarioWrites(h, id, body, t);
      PutKeepsEmailsUnique(t, id, ApplyUsuario(t.rows[id], p.patch));
    }
  }

  /** An accepted update stores the patched row under `id`, whose address, with unique
      addresses before, no other row holds. */
  lemma UpdateUsuarioWrites(h: Hasher, id: int, body: Payload, t: Table<Usuario>)
    requires UniqueEmails(t) && PlanUpdate(h, id, body, t).Write?
    ensures id in t.rows
    ensures var row := ApplyUsuario(t.rows[id], PlanUpdate(h, id, body, t).patch);
            && UpdateUsuario(h, id, body, t).table == Put(t, id, row)
            && forall k | k in t.rows && k != id :: t.rows[k].email != row.email
  {
    var patch := PlanUpdate(h, id, body, t).patch;
    PatchEmailFree(id, patch, t);
  }

  /** A patch whose address is free apart from row `id` leaves that row's address free. */
  lemma PatchEmailFree(id: int, patch: UsuarioPatch, t: Table<Usuario>)
    requires UniqueEmails(t) && id in t.rows
    requires patch.email.Some? ==> !EmailTaken(t, patch.email.value, {id})
    ensures forall k | k in t.rows && k != id :: t.rows[k].email != ApplyUsuario(t.rows[id], patch).email
  {
  }

  /** Storing under `id` an address no other row holds keeps addresses unique. */
  lemma PutKeepsEmailsUnique(t: Table<Usuario>, id: int, row: Usuario)
    requires UniqueEmails(t) && id in t.rows
    requires forall k | k in t.rows && k != id :: t.rows[k].email != row.email
    ensures UniqueEmails(Put(t, id, row))
  {
    var rows := Put(t, id, row).rows;
    forall i, j | i in rows && j in rows && i != j
      ensures rows[i].email != rows[j].email
    {
      if i != id && j != id {
        assert rows[i] == t.rows[i] && rows[j] == t.rows[j];
      }
    }
  }

  /** No answer of an update carries a password field. */
  lemma UpdateUsuarioHidesPassword(h: Hasher, id: int, body: Payload, t: Table<Usuario>)
    ensures HidesPassword(UpdateUsuario(h, id, body, t).body)
  {
    match PlanUpdate(h, id, body, t)
    case Refuse(response) =>
      assert UpdateUsuario(h, id, body, t).body == response.body;
    case Write(patch) =>
      var row := ApplyUsuario(t.rows[id], patch);
      assert UpdateUsuario(h, id, body, t).body == Obj(UsuarioView(id, row));
      ViewIgnoresPassword(id, row, Digest(""));
  }

  // ---------------------------------------------------------------- delete and reads

  /** `deleteUsuario`. A row other tables still reference makes the `DELETE` fail with a
      500; foreign keys are not modelled. */
  function DeleteUsuario(id: int, t: Table<Usuario>): (r: Response<Usuario>)
    ensures r.status == 404 <==> id !in t.rows
    ensures r.status == 404 ==> r.table == t
    ensures id in t.rows ==> r.status == 204 && r.body == Empty && r.table.rows == t.rows - {id}
  {
    DeleteById(id, t)
  }
  /** Deleting the user a create just added restores the table's rows. */
  lemma DeleteUndoesCreateUsuario(defaultRol: string, h: Hasher, body: Payload, t: Table<Usuario>)
    requires Valid(t) && CreateUsuarioWith(defaultRol, h, body, t).status == 201
    ensures var t' := CreateUsuarioWith(defaultRol, h, body, t).table;
            && DeleteUsuario(t.next, t').status == 204
            && DeleteUsuario(t.next, t').table.rows == t.rows
  {
    var t' := CreateUsuarioWith(defaultRol, h, body, t).table;
    RemoveUndoesAdd(t, t', NewUsuario(defaultRol, h, body));
  }

  /** Deletion keeps e-mail addresses unique. */
  lemma DeleteUsuarioKeepsEmailsUnique(id: int, t: Table<Usuario>)
    requires UniqueEmails(t)
    ensures UniqueEmails(DeleteUsuario(id, t).table)
  {
  }


  /** The id a listed user view names, if the item is such a view. */
  function ListedId(j: Json): Option<int> {
    if j.Obj? && Idusuario in j.fields && j.fields[Idusuario].Scalar? && j.fields[Idusuario].v.Num?
    then Some(j.fields[Idusuario].v.n) else None
  }

  /** `j` is the public view of the stored row it names. */
  predicate ListsRow(j: Json, t: Table<Usuario>) {
    && ListedId(j).Some? && ListedId(j).value in t.rows
    && j == Obj(UsuarioView(ListedId(j).value, t.rows[ListedId(j).value]))
  }

  /** The public views of the rows `ids` names, in that order. */
  function Views(ids: seq<int>, t: Table<Usuario>): (items: seq<Json>)
    requires forall i | 0 <= i < |ids| :: ids[i] in t.rows
    ensures |items| == |ids|
    ensures forall i | 0 <= i < |ids| :: items[i] == Obj(UsuarioView(ids[i], t.rows[ids[i]]))
  {
    seq(|ids|, i requires 0 <= i < |ids| => Obj(UsuarioView(ids[i], t.rows[ids[i]])))
  }

  lemma ViewsListRows(ids: seq<int>, t: Table<Usuario>)
    requires forall i | 0 <= i < |ids| :: ids[i] in t.rows
    ensures forall i | 0 <= i < |ids| :: ListsRow(Views(ids, t)[i], t) && ListedId(Views(ids, t)[i]) == Some(ids[i])
  {
    var items := Views(ids, t);
    forall i | 0 <= i < |ids| ensures ListsRow(items[i], t) && ListedId(items[i]) == Some(ids[i]) {
      assert ListedId(items[i]) == Some(ids[i]);
    }
  }

  /** Views listed from strictly decreasing ids carry strictly decreasing ids. */
  lemma ViewsKeepOrder(ids: seq<int>, t: Table<Usuario>)
    requires forall i | 0 <= i < |ids| :: ids[i] in t.rows
    requires Decreasing(ids)
    ensures forall i, j | 0 <= i < j < |ids| ::
              ListedId(Views(ids, t)[i]).Some? && ListedId(Views(ids, t)[j]).Some? &&
              ListedId(Views(ids, t)[i]).value > ListedId(Views(ids, t)[j]).value
  {
    ViewsListRows(ids, t);
  }

  lemma ViewsCoverRows(ids: seq<int>, t: Table<Usuario>)
    requires forall i | 0 <= i < |ids| :: ids[i] in t.rows
    requires forall id | id in t.rows :: id in ids
    ensures forall id | id in t.rows :: Obj(UsuarioView(id, t.rows[id])) in Views(ids, t)
  {
    var items := Views(ids, t);
    forall id | id in t.rows ensures Obj(UsuarioView(id, t.rows[id])) in items {
      var i :| 0 <= i < |ids| && ids[i] == id;
      assert items[i] == Obj(UsuarioView(id, t.rows[id]));
    }
  }

  /** `getAllUsuarios`: every user's public view, newest first. Rows are created in id
      order, so creation time descending is id descending. */
  function GetAllUsuarios(t: Table<Usuario>): (r: Response<Usuario>)
    ensures r.status == 200 && r.table == t && r.body.Arr?
    ensures |r.body.items| == |t.rows|
    ensures forall i | 0 <= i < |r.body.items| :: ListsRow(r.body.items[i], t)
    ensures forall i, j | 0 <= i < j < |r.body.items| ::
              ListedId(r.body.items[i]).Some? && ListedId(r.body.items[j]).Some? &&
              ListedId(r.body.items[i]).value > ListedId(r.body.items[j]).value
    ensures forall id | id in t.rows :: Obj(UsuarioView(id, t.rows[id])) in r.body.items
  {
    var ids := Descending(t.rows.Keys);
    ViewsListRows(ids, t);
    ViewsKeepOrder(ids, t);
    ViewsCoverRows(ids, t);
    Response(200, Arr(Views(ids, t)), t)
  }

  /** `getUsuarioById`. */
  function GetUsuarioById(id: int, t: Table<Usuario>): (r: Response<Usuario>)
    ensures r.table == t
    ensures r.status == 404 <==> id !in t.rows
    ensures r.status == 404 ==> r.body == Error(NotFound)
    ensures r.status != 404 ==> r.status == 200 && r.body == Obj(UsuarioView(id, t.rows[id]))
  {
    if id !in t.rows then Reject(404, NotFound, t)
    else Response(200, Obj(UsuarioView(id, t.rows[id])), t)
  }

  /** The listing never answers with a password field. */
  lemma GetAllHidesPassword(t: Table<Usuario>)
    ensures HidesPassword(GetAllUsuarios(t).body)
  {
    var items := GetAllUsuarios(t).body.items;
    forall i | 0 <= i < |items| ensures HidesPassword(items[i]) {
      assert ListsRow(items[i], t);
      var id := ListedId(items[i]).value;
      ViewIgnoresPassword(id, t.rows[id], Digest(""));
    }
  }

  /** Nor does the single read. */
  lemma GetByIdHidesPassword(id: int, t: Table<Usuario>)
    ensures HidesPassword(GetUsuarioById(id, t).body)
  {
    if id in t.rows {
      ViewIgnoresPassword(id, t.rows[id], Digest(""));
    }
  }
}
